=== FILE: README.md ===
# A verified model of the `pretty` structural diff engine

This project models in Dafny the core of the Go package `pretty` (edgro/pretty):

- the recursive walker `diffPrinter.diff`, which compares two reflected values in lockstep and reports every divergence;
- the breadcrumb builder `relabel`;
- the map-key partition `keyEqual`/`keyDiff`;
- the level-keyed label store of `labels.go`;
- the append-only record sink of `structured_output.go`;
- the configurable comparator of `custom_diff.go`, with its functional options, numeric tolerance and the two entry points `Diff` and `StructuredDiff`.

Modules, one file each:

| file | module | what it holds |
|---|---|---|
| `basics.dfy` | `Basics` | `Option` and `Outcome`. `Outcome` is the result of a call that either finishes or aborts the whole walk, the way a Go reflection `panic` does. |
| `values.dfy` | `Values` | An abstraction of `reflect.Value`, in the form of finite trees (see below). |
| `breadcrumbs.dfy` | `Breadcrumbs` | Go's `strings.Split` and `strings.Join`, which the label store uses to cut a path into levels. |
| `structured_output.dfy` | `StructuredOutput` | `Label`, `StructuredDiff` and the sink. |
| `key_partition.dfy` | `KeyPartition` | `keyEqual`, map lookup and `keyDiff`. |
| `label_store.dfy` | `LabelStore` | `SetIfExists`, `Clear` and `Current`, plus `Nearest`, a reference reading of what `Current` must return. |
| `walker.dfy` | `Walker` | The decision ladder, rule by rule. It threads a `State` of the two visited maps, the label store, the text lines and the sink. |
| `walker_props.dfy` | `WalkerProps` | Properties that relate several walks. |
| `custom_diff.dfy` | `CustomDiff` | Options, the tolerance comparator and the entry points. |
| `footprint.dfy` | `Footprints` | The guard keys of a value's nodes, `Unshared` (a value none of whose nodes share a key), and the frame lemmas: a walk records only keys of its two values. |
| `agreement.dfy` | `Agreement` | `Same`, a reference deep equality under a comparison policy, and the theorem that a completed walk reports nothing exactly when its two values are `Same`. |
| `scenarios.dfy` | `Scenarios` | The repository's "label fields" example, replayed on the model. |

In `values.dfy`:

- Each value carries a type identity.
- Each value carries an optional address, the `CanAddr`/`UnsafeAddr` token.
- Each value carries a kind-specific payload.
- A cycle in the Go heap shows up as the same address reappearing further down.

Two renderings are not part of this model and are taken as opaque functions in a `Formatter` parameter: the `fmt` verbs and the value formatter (`%# v`, `%v`, `%#v`, `%q`, `%d`, `%#x`). Two further things are parameters of the walk because they are not defined in the files modelled: the separator `sep` that `Current` splits a path at (labels.go:51), and `visit`, which is modelled as (address, type).

Where the files disagree, the model follows `labels.go`. The walker in diff.go:103, 266-267 and 273 calls `labels.Exists`, `labels.Set`, `labels.Clear()` and `labels.Current()` without a level, but the `Labels` interface in labels.go:8-12 takes one. The walker here passes its current path `l` as the level, so:

- a struct records its labels at its own path;
- a struct clears its labels at its own path;
- a record reads the labels visible from its own path.

## Model

| member | source | states |
|---|---|---|
| `Walker.Relabel` | diff.go:292-300 | The new path is the old one, then "." only when the old path is non-empty and the segment does not start with '[', then the segment. `leafName` becomes the segment. |
| `Walker.Emit` | diff.go:89-106 | A report appends exactly one text line, prefixed by "path: " unless the path is empty. It also appends exactly one record carrying the path, the labels visible there and the two renderings. Visited maps and labels are unchanged. |
| `Walker.ReportIf` | diff.go:185-188 | The shared "if a != b report" step: no change when the sides agree, otherwise exactly one record at the current path. |
| `Walker.Guard` | diff.go:131-153 | After an addressable pair, `aVisited[a] = b` and `bVisited[b] = a`, and the walk stops exactly when either key had been seen. A consistent revisit adds no record. An A key seen before with another B key adds exactly the record whose A rendering is marked " (previously visited) ". Otherwise a B key seen before with another A key adds exactly the record whose B rendering is so marked. Non-addressable pairs pass unchanged. |
| `WalkerProps.GuardRevisit` | diff.go:131-153 | Guarding the same addressable pair again stops silently and changes nothing. |
| `Walker.Walk` | diff.go:108-153 | Exactly one side invalid gives exactly one record with "nil" on the absent side and no descent. Both invalid gives nothing. Differing type names, when not ignored, give one record naming both types and no descent. A revisited addressable pair stops at the guard: the result is the guard's state, and nothing below is compared. Every successful walk only appends records at or under its path. |
| `Walker.WalkContinues` | diff.go:131-166 | When the guard does not fire, the walk goes on from the guard's state, which holds the new pairing, to the comparator rules and the per-kind rules: its outcome is `Compare`'s, a panic included. |
| `Walker.Compare` | diff.go:166-181 | A comparator registered for A's type alone decides the node, as does the numeric comparator when both sides are numbers. Either yields no record when it accepts and one record otherwise, with no descent. |
| `Walker.Structural` | diff.go:183-276 | Every kind has a rule, so the "unknown reflect Kind" panic is unreachable. Arrays, maps and structs report only strictly below their own path. A struct leaves no label level at its path. |
| `Walker.Leaf` | diff.go:184-208 | Booleans and numbers, and also channels, funcs and unsafe pointers (diff.go:214-218) and strings (diff.go:259-263). Per kind, the B side is read with the accessor of A's kind. The leaf aborts exactly when that read aborts; a string reading never aborts. Otherwise it adds exactly one record at the path, with the two readings rendered by the kind's printer, when the readings differ, and none when they are equal. Labels and visited maps are unchanged. |
| `Walker.WalkIface` | diff.go:219-220 | A B side with no held value aborts. Otherwise the result is the walk of the two held values at the same path. |
| `Walker.WalkSlice` | diff.go:248-258 | Unequal lengths give exactly one record `T[lenA]` against `T[lenB]` and no element records. Equal lengths give the walk of the elements from index 0, which adds records only strictly below the path. A B side that is not an array or slice aborts. |
| `Walker.WalkElems` | diff.go:209-213 | Element records lie strictly below the path, and past the last index nothing changes. What the element walks decide is stated by `Agreement.ElemsAgrees`. |
| `Walker.WalkMap` | diff.go:221-236 | A non-map B side aborts. Otherwise the first records are exactly one "(missing)" record per key only in A, in key order, with the labels visible at "[key]". The last records are the "(missing)" records of the keys only in B, in key order, with A and B swapped, when no label level lies at or under the map's path. The two groups are distinct records: there are at least as many records as one-sided keys. All records lie strictly below the map's path. |
| `Walker.WalkMapKeys` | diff.go:222-236 | The three loops over the partitioned keys: the only-in-A reports are the first records, the only-in-B reports the last ones (under the same label condition as `WalkMap`), and the common keys' walks lie between them. The two groups do not overlap: there are at least as many records as one-sided keys. All records lie strictly below the path. |
| `Walker.MapKeysAssembled` | diff.go:222-236 | The three groups put together: the A-only reports, then a step strictly below the path, then the B-only reports. The A-only records come first. The B-only records come last with the starting labels, when no level lies at or under the path. The two groups do not overlap. |
| `Walker.ReportMissing` | diff.go:223-235 | Serves both one-sided loops, the A-only one (diff.go:223-227) and the B-only one (diff.go:232-235). One "%q != (missing)" line and one record per one-sided key, appended in key order. Labels and visited maps are unchanged. |
| `Walker.ReportMissingStep` | diff.go:223-235 | For both one-sided loops (diff.go:223-227 and 232-235), the "(missing)" reports all lie strictly under the map's path. The j-th report is at the j-th key's "[key]" segment. |
| `Walker.WalkCommon` | diff.go:228-231 | Records of the common keys' walks lie strictly below the path, and with no key left nothing changes. What the element walks decide is stated by `Agreement.CommonAgrees`. |
| `Walker.WalkPtr` | diff.go:237-247 | Exactly one nil side gives exactly one record with "nil" for that side. Two nil pointers agree. Two non-nil pointers give the walk of the two pointees at the same path. A B side that is not a pointer, interface, channel, func or unsafe pointer aborts. |
| `Walker.WalkStruct` | diff.go:264-273 | The fields are walked from a store whose level at the struct's path holds the labels captured from A's string fields, and the result is that walk with the level cleared. All records lie strictly below the path, and afterwards no label level remains there. |
| `Walker.CaptureLabels` | diff.go:265-269 | Each configured name takes the value of the last A-side string field of that name. The level exists exactly when it already did or such a field exists. No other level changes. |
| `Walker.LastStringField` | diff.go:265-267 | Reference reading: a value is found exactly when some string field carries the name. |
| `Walker.WalkFields` | diff.go:270-272 | Field records lie strictly below the struct's path, and the struct's own captured level is kept unchanged while its fields are walked. Past the last field nothing changes. What the field walks decide is stated by `Agreement.FieldsAgrees`. |
| `KeyPartition.KeyEqualReflexive` | diff.go:314-362 | Every comparable key equals itself under `keyEqual`'s per-kind rules. |
| `KeyPartition.MapIndex` | diff.go:225 | The lookup returns an element of the map whose key matches, or the invalid value when no key matches. |
| `KeyPartition.HasPartner` | diff.go:366-373 | The first inner scan succeeds exactly when some B key is `keyEqual`. |
| `KeyPartition.HasPartnerIn` | diff.go:379-385 | The second inner scan succeeds exactly when some A key is `keyEqual`. |
| `KeyPartition.SplitByPartner` | diff.go:365-377 | Every A key lands in exactly one of the two lists, with or without a partner, each list in A order. |
| `KeyPartition.Unmatched` | diff.go:378-389 | Exactly the B keys without a partner, in B order, each as many times as in B. |
| `KeyPartition.KeyDiff` | diff.go:364-391 | `ak` and `both` together account for every A key, each in A order: no `ak` key has a partner in B, and every `both` key has one. `bk` holds exactly the B keys with no partner in A, each as many times as in B. |
| `KeyPartition.KeyDiffSelf` | diff.go:364-391 | A key list partitioned against itself has nothing one-sided. |
| `LabelStore.NewLabels` | labels.go:70-81 | A new store has no level and exactly the given names, as list and as set. |
| `LabelStore.SetIfExists` | labels.go:21-34 | An unconfigured name leaves the store unchanged. The first write at a level starts every other configured name at "". Later writes keep the other names. No other level changes. |
| `LabelStore.Clear` | labels.go:36-42 | Only that level is removed, and clearing an absent level changes nothing. |
| `LabelStore.Nearest` | labels.go:51-66 | Reference reading: the value at the last crumb holding a non-empty value for the name, or "" when none does. |
| `LabelStore.Current` | labels.go:44-68 | One label per configured name, in configured order, with its name. Each value is the `Nearest` reading over the path's breadcrumbs. |
| `LabelStore.OverlayAllMeetsNearest` | labels.go:52-66 | The crumb-by-crumb overwrite of `Current` agrees with the reference reading: later non-empty values win, and empty values never override. |
| `LabelStore.UnsplittableLevelUnseen` | labels.go:51-53 | A level whose name contains the separator is never a crumb, so nothing recorded there is ever visible. |
| `Breadcrumbs.Split` | labels.go:51 | `strings.Split`: a non-empty separator yields at least one part, and an empty one yields one part per character. |
| `Breadcrumbs.JoinSplit` | labels.go:51 | Joining the parts of a split with the separator restores the path. |
| `Breadcrumbs.SplitPartsFree` | labels.go:51 | No crumb contains a non-empty separator. |
| `Breadcrumbs.SplitLeftmost` | labels.go:51 | The first cut is at the leftmost occurrence of the separator, even when occurrences overlap. |
| `Breadcrumbs.SplitAtSeparator` | labels.go:51 | With a one-character separator, splitting `x + sep + y` is splitting `x`, then `y`. |
| `WalkerProps.RelabelCrumbs` | diff.go:292-300 | With separator ".", a named segment adds exactly its own crumbs to the levels `Current` consults. |
| `WalkerProps.SelfWalk` | diff.go:108-277 | A value compared with itself yields no line, no record and no panic, provided every registered comparator is reflexive. |
| `WalkerProps.SelfMap` | diff.go:221-236 | A map compared with itself: `keyDiff` of its keys against themselves puts every key in `both` and none in `ak` or `bk`, and the map walk is exactly the walk over its keys as common keys. It reports nothing. |
| `WalkerProps.SelfStruct` | diff.go:264-273 | A struct compared with itself reports nothing. |
| `StructuredOutput.NewStructuredDiffer` | structured_output.go:32-34 | A new sink has no results. |
| `StructuredOutput.Print` | structured_output.go:24-26 | Exactly one record is appended at the end, and earlier records are unchanged. |
| `StructuredOutput.ResultsOfPrints` | structured_output.go:24-30 | `Results` returns every printed record in print order, with no deduplication, reordering or truncation. |
| `StructuredOutput.FreshSinkResults` | structured_output.go:28-34 | A new sink returns exactly what was printed. |
| `CustomDiff.Defaults` | custom_diff.go:67-74 | No comparators, no numeric comparator, type names not ignored, no label names, default guard band. |
| `CustomDiff.Apply` | custom_diff.go:28-65 | Each option sets its own field and no other. |
| `CustomDiff.LastOptionWins` | custom_diff.go:72-74 | Options apply in order: each field holds what the last option of its kind set, or its default. |
| `CustomDiff.ApplyAllSnoc` | custom_diff.go:72-74 | One more option is applied after all the others. |
| `CustomDiff.NewCustomDiff` | custom_diff.go:67-81 | Each field holds the value set by the last option of its kind, or the default when no option sets it: type names enforced, the default guard band, no comparators, no label names, no numeric tolerance. |
| `CustomDiff.NumericComparator` | custom_diff.go:60-65 | `WithNumericEpsilon(e)` installs a comparator that accepts exactly when the absolute difference is at most e plus the guard band. Without it there is none. |
| `CustomDiff.ToleranceSymmetric` | custom_diff.go:48-52 | The tolerance comparator does not depend on argument order. |
| `CustomDiff.ToleranceReflexive` | custom_diff.go:48-52 | It accepts every number against itself exactly when tolerance plus guard band is non-negative. |
| `CustomDiff.Fresh` | custom_diff.go:91-98 | Each call starts with empty visited maps, an empty label store for the configured names, no line and an empty sink. |
| `CustomDiff.Diff` | custom_diff.go:90-101 | `ok` holds exactly when the list of lines is empty. |
| `CustomDiff.StructuredDiff` | custom_diff.go:103-117 | `ok` holds exactly when the list of records is empty. The text lines are discarded. |
| `CustomDiff.PackageDiffIsDefault` | diff.go:20-53 | The package-level `Diff` is the comparator with no options. |
| `CustomDiff.DiffAgreesWithStructured` | custom_diff.go:90-117 | Both entry points see the same number of differences and agree on `ok`. |
| `CustomDiff.DiffReflexive` | custom_diff.go:90-117 | A value compared with itself gives `([], true)` from both entry points when comparators are reflexive and the tolerance is non-negative. |
| `Scenarios.EqualField` | custom_diff_structured_test.go:47-70 | Equal integer or float fields report nothing. |
| `Scenarios.CaptureChild` | custom_diff_structured_test.go:180-202 | A nested struct with a `str` field records that value at its own level. |
| `Scenarios.CurrentAtChildStr` | custom_diff_structured_test.go:203-209 | The label recorded at "child" is visible at "child.str". |
| `Scenarios.LabelFromASide` | custom_diff_structured_test.go:180-211 | The nested struct's differing field gives exactly one record at "child.str", labelled with the A side's value. The level is cleared afterwards. |
| `Scenarios.LabelFieldsExample` | custom_diff_structured_test.go:180-211 | Under `WithLabelFields("str")` from fresh state, the `child` field yields exactly the record `{child.str, [str: "strValue A"], "strValue A" quoted, "strValue B" quoted}`. |
| `Agreement.WalkAgrees` | diff.go:108-153 | For two values without shared nodes, from a state whose visited maps hold no key of either value (so the guard never fires on them), a walk that completes adds no record exactly when the two values are `Same`: both absent, or type names matching (unless ignored) and the values agreeing under the policy. |
| `Agreement.CompareAgrees` | diff.go:166-181 | A completed comparison adds no record exactly when a registered comparator accepts, or else the numeric comparator accepts two numbers, or else the kinds' own equality holds. |
| `Agreement.StructuralAgrees` | diff.go:183-276 | A completed per-kind comparison adds no record exactly when the kinds' own equality holds. |
| `Agreement.LeafAgrees` | diff.go:184-208 | For the kinds of `Walker.Leaf` (diff.go:214-218 and 259-263 as well), a completed leaf comparison adds no record exactly when B reads back equal to A: same scalar, same address, or A's string equal to B's `String()` rendering. |
| `Agreement.IfaceAgrees` | diff.go:219-220 | A completed interface comparison adds no record exactly when the held values are the same. |
| `Agreement.SliceAgrees` | diff.go:248-258 | A completed slice comparison adds no record exactly when B has A's length and every element is the same as B's at its index. |
| `Agreement.ElemsAgrees` | diff.go:209-213 | For elements whose nodes the visited maps do not yet hold, from index i on, completed element walks add no record exactly when each element is the same as B's at its index. |
| `Agreement.MapAgrees` | diff.go:221-236 | A completed map comparison adds no record exactly when no key is one-sided and the elements under each common key are the same. |
| `Agreement.CommonAgrees` | diff.go:228-231 | For pairwise apart keys whose elements' nodes the visited maps do not yet hold, completed common-key walks add no record exactly when the elements under every common key are the same. |
| `Agreement.PtrAgrees` | diff.go:237-247 | A completed pointer comparison adds no record exactly when both pointers are nil, or neither is and the pointees are the same. |
| `Agreement.StructAgrees` | diff.go:264-273 | A completed struct comparison adds no record exactly when every field is the same as B's field at its position. |
| `Agreement.FieldsAgrees` | diff.go:270-272 | For fields whose nodes the visited maps do not yet hold, from field i on, completed field walks add no record exactly when each field is the same as B's at its position. |
| `Footprints.GuardFrame` | diff.go:131-153 | The guard adds to the visited maps at most the keys of the two nodes it is given. |
| `Footprints.WalkFrame` | diff.go:108-153 | A completed walk adds to A's visited map only keys of A's nodes, and to B's only keys of B's nodes. |
| `Footprints.CompareFrame` | diff.go:166-181 | A completed comparison adds only keys of nodes strictly below the two values. |
| `Footprints.StructuralFrame` | diff.go:183-276 | The same for every kind's rule. |
| `Footprints.SliceFrame` | diff.go:248-258 | The same for slices: unequal lengths add no key at all. |
| `Footprints.IfaceFrame` | diff.go:219-220 | The same for interfaces: only keys of the held values. |
| `Footprints.PtrFrame` | diff.go:237-247 | The same for pointers: only keys of the pointees. |
| `Footprints.StructFrame` | diff.go:264-273 | The same for structs: only keys of the fields. |
| `Footprints.ElemsFrame` | diff.go:209-213 | Element walks from index i add only keys of the elements. |
| `Footprints.FieldsFrame` | diff.go:270-272 | Field walks from field i add only keys of the fields. |
| `Footprints.MapFrame` | diff.go:221-236 | A map walk adds only keys of the map's elements; the "(missing)" reports add none. |
| `Footprints.CommonFrame` | diff.go:228-231 | Common-key walks add only keys of the elements under those keys. |
| `Footprints.MapIndexApart` | diff.go:225 | Looking up two apart keys in a map without shared nodes yields elements with disjoint node sets. |
| `Agreement.DiffOkIffSame` | custom_diff.go:90-117 | For two values without shared nodes, both entry points, when they complete, report `ok` exactly when the two values are `Same` under the comparator's policy. |

## Left out

- Time normalisation (diff.go:155-164) and `getReadableTimeCopy` (diff.go:279-290) are not modelled. They depend on locale and time-zone formatting. The model has no time type, so rule 4 of the ladder never applies.
- `getValueForRead` (diff.go:302-310) is unused unsafe reflection and is not modelled.
- `Fdiff`, `Ldiff`, `Pdiff`'s `Printfer` and the writer/logger adapters (diff.go:25-72) are left out as output plumbing. The model collects the text lines in a list, as `sbuf` does.
- The value formatter and the `fmt` verbs are not part of this model; they are opaque functions of a `Formatter` parameter. For the same reason a '%' inside a path is not interpreted as a format directive, whereas `printf` would interpret it.
- Floats and complex numbers are exact reals, with no IEEE rounding, NaN or infinities, and integers are unbounded. Go's widths (int64, uint64, float32) are not modelled.
- `globalPrecision` is a process-wide variable that `WithPrecision` mutates. It is modelled as an options field read when the comparator runs.
- The `sync.RWMutex` in labels.go is concurrency and is irrelevant in this sequential model.
- The `CanInterface` and `Interface()` calls of the comparators are not modelled. Comparators receive the model values directly, so the panic on unexported fields is not modelled.
- Reflection panics are collapsed into `Panic`. Go's accessors accept some kinds that the model's do not, and when type names are ignored the walker can meet them; the lines below name each case.
- `MapKeys` order is taken as the order of a map's entries. Go randomises it, so the model holds for any fixed order.
- Go's map lookup `MapIndex` is modelled through `keyEqual`, the first matching entry.
- A nil label list and an empty one are indistinguishable here: `Current` with no names is `[]`.
- Diff mode, which passes no sink, still fills the model's sink. The records are not returned, so this is unobservable.
- `leafName` is kept in `Crumb` but is never read, as in the source.
- LenOf: Go's `Len` also accepts maps, strings and channels, but `LenOf` accepts only arrays and slices. The model's strings are characters rather than bytes, and its channels carry no buffer, so their Go lengths have no counterpart here. Maps are left out with them, so that a slice has one reading of "B's elements" in `Agreement.Same`.
- IndexOf: Go's `Index` also indexes a string, giving a byte. The model has no byte view of a string, so `IndexOf` aborts on one.
- PointerOf: Go's `Pointer` also accepts maps and slices. The model's maps and slices carry no data pointer, so `PointerOf` accepts only pointers, channels, funcs and unsafe pointers.
- IsNilOf: Go's `IsNil` also accepts maps and slices. The model's maps and slices carry no nil flag, so `IsNilOf` aborts on them.
- Walker.WalkSlice: with a map, string or channel B side and type names ignored, Go compares lengths where the model aborts, because of `LenOf` above. Go then reports one record for unequal lengths, or nothing for two empty values.
- Walker.WalkPtr: with a map or slice B side and type names ignored, Go asks whether it is nil where the model aborts, because of `IsNilOf` above. Go then reports one record when exactly one side is nil.
- Walker.Leaf: with a map or slice B side of an A-side channel, func or unsafe pointer and type names ignored, Go compares addresses where the model aborts, because of `PointerOf` above.
- Walker.WalkElems, Walker.WalkFields and Walker.WalkCommon: their own contracts state only where records go and that an exhausted loop changes nothing. Stating which child walks run in them would make every caller unfold the whole walker. What the child walks decide is stated instead by the `Agreement` lemmas.
- Walker.WalkMap and Walker.WalkMapKeys: the "(missing)" records of B-only keys are pinned only when no label level lies at or under the map's path. That holds at the start of a walk, since `CustomDiff.Fresh` has no level. It is not proved for every node.
- Agreement.WalkAgrees and Agreement.DiffOkIffSame: they hold for two values that are each `Unshared`, meaning no two of a value's nodes carry the same (address, type) key and its map keys are pairwise apart. A value with a cycle, or with two pointers to one place, makes the cycle guard fire at a revisit. The walk then stops there, which `Same`, a finite recursion over the value, does not do. The guard's keys are per side, so A and B may share nodes with each other.
- Scenarios.LabelFieldsExample covers the `child` field of the repository's "label fields" example. The `intField` and `floatField` fields, which compare equal, are covered separately by `Scenarios.EqualField`.

=== FILE: agreement.dfy ===
/** What a walk's silence means: a reference deep equality on values, with
    the policy's comparators and each kind's reading of the B side, and the
    theorem that a walk which completes adds no record exactly when the two
    values are equal in that sense. */
module Agreement {
  import opened Basics
  import opened Values
  import opened KeyPartition
  import opened StructuredOutput
  import opened LabelStore
  import opened Walker
  import opened Footprints
  import CustomDiff

  /** Deep equality under the comparison policy of `env`: both absent, or
      both present with type names that match (unless ignored) and agreeing
      by the policy. */
  ghost predicate Same(env: Env, a: Value, b: Value)
    requires WellFormed(a) && WellFormed(b)
    decreases Size(a), 2
  {
    if a.Invalid? || b.Invalid? then a.Invalid? && b.Invalid?
    else if !env.policy.ignoreTypeNameDifference && a.typ != b.typ then false
    else Agrees(env, a, b)
  }

  /** A registered comparator for A's type decides alone; else, between two
      numbers, the numeric comparator does; else the kinds' own equality. */
  ghost predicate Agrees(env: Env, a: Value, b: Value)
    requires a.Value? && b.Value? && WellFormed(a) && WellFormed(b)
    decreases Size(a), 1
  {
    if a.typ in env.policy.customComparators then env.policy.customComparators[a.typ](a, b)
    else if env.policy.numericComparator.Some? && IsNumeric(a) && IsNumeric(b) then
      env.policy.numericComparator.value(AsFloat(a), AsFloat(b))
    else SameData(env, a, b)
  }

  /** Equality kind by kind, with the B side read as reflection reads it:
      scalars and addresses are equal, a string equals B's `String()`
      rendering, the elements and fields of A equal those at the same
      positions of B, a slice has B's length, a map has exactly B's keys
      (under key equality) with equal elements, and pointers are both nil
      or point to equal values. */
  ghost predicate SameData(env: Env, a: Value, b: Value)
    requires a.Value? && b.Value? && WellFormed(a) && WellFormed(b)
    decreases Size(a), 0
  {
    ChildrenSmaller(a);
    match a.data
    case Bool(x) => b.data.Bool? && x == b.data.b
    case Int(x) => b.data.Int? && x == b.data.i
    case Uint(x) => b.data.Uint? && x == b.data.u
    case Float(x) => b.data.Float? && x == b.data.f
    case Complex(re, im) => b.data.Complex? && re == b.data.re && im == b.data.im
    case Opaque(_, p) => (b.data.Ptr? || b.data.Opaque?) && p == b.data.ptr
    case Str(x) => x == StringOf(env.fmt, b)
    case Array(es) => ElemsSame(env, a, b, 0)
    case Slice(es) =>
      (b.data.Array? || b.data.Slice?) && |b.data.elems| == |es| && ElemsSame(env, a, b, 0)
    case Iface(h) => (b.data.Ptr? || b.data.Iface?) && Same(env, h, ElemOf(b).value)
    case Ptr(_, e) =>
      && (b.data.Ptr? || b.data.Iface? || b.data.Opaque?)
      && if e.None? || IsNilOf(b).value then e.None? && IsNilOf(b).value
         else (b.data.Ptr? || b.data.Iface?) && Same(env, e.value, ElemOf(b).value)
    case Map(es) =>
      && b.data.Map?
      && (MapKeysComparable(a, b);
          var ks := KeyDiff(Keys(es), Keys(b.data.entries));
          && ks.onlyA == [] && ks.onlyB == []
          && CommonSame(env, a, b.data.entries, ks.both))
    case Struct(fs) => FieldsSame(env, a, b, 0)
  }

  /** Elements `i`, `i+1`, … of A each equal B's element at the same index. */
  ghost predicate ElemsSame(env: Env, a: Value, b: Value, i: nat)
    requires a.Value? && (a.data.Array? || a.data.Slice?) && i <= |a.data.elems|
    requires WellFormed(a) && WellFormed(b)
    decreases Size(a), 0, |a.data.elems| - i
  {
    ChildrenSmaller(a);
    i == |a.data.elems|
    || (IndexOf(b, i).Done? && Same(env, a.data.elems[i], b.data.elems[i])
        && ElemsSame(env, a, b, i + 1))
  }

  /** Fields `i`, `i+1`, … of A each equal B's field at the same position. */
  ghost predicate FieldsSame(env: Env, a: Value, b: Value, i: nat)
    requires a.Value? && a.data.Struct? && i <= |a.data.fields|
    requires WellFormed(a) && WellFormed(b)
    decreases Size(a), 0, |a.data.fields| - i
  {
    ChildrenSmaller(a);
    i == |a.data.fields|
    || (FieldOf(b, i).Done? && Same(env, a.data.fields[i].val, b.data.fields[i].val)
        && FieldsSame(env, a, b, i + 1))
  }

  /** Under every key of `ks` the two maps hold equal elements. */
  ghost predicate CommonSame(env: Env, a: Value, bes: seq<Entry>, ks: seq<Value>)
    requires a.Value? && a.data.Map? && AllComparable(ks) && WellFormed(a)
    requires forall i :: 0 <= i < |bes| ==> WellFormed(bes[i].val)
    decreases Size(a), 0, |ks|
  {
    ks == [] || (SameUnder(env, a, bes, ks[0]) && CommonSame(env, a, bes, ks[1..]))
  }

  /** The two elements stored under common key `k` are equal. */
  ghost predicate SameUnder(env: Env, a: Value, bes: seq<Entry>, k: Value)
    requires a.Value? && a.data.Map? && Comparable(k) && WellFormed(a)
    requires forall i :: 0 <= i < |bes| ==> WellFormed(bes[i].val)
    decreases Size(a), 0, 0
  {
    CommonChildren(a, bes, k);
    Same(env, MapIndex(a.data.entries, k), MapIndex(bes, k))
  }

  // ---------------------------------------------------------------------
  // A completed walk is silent exactly when the values are the same
  // ---------------------------------------------------------------------

  /** Two consecutive steps add no record exactly when neither does. */
  lemma NoneAcross(s: State, t: State, u: State)
    requires Results(s.out) <= Results(t.out) && Results(t.out) <= Results(u.out)
    ensures NewRecords(s, u) == [] <==> NewRecords(s, t) == [] && NewRecords(t, u) == []
  {
    assert |NewRecords(s, u)| == |NewRecords(s, t)| + |NewRecords(t, u)|;
  }

  /** From a state whose visited maps hold no key of either value, a walk
      of two unshared values that completes adds no record exactly when the
      values are the same: the cycle guard never fires, so every node pair
      is compared. */
  lemma {:induction false} WalkAgrees(env: Env, c: Crumb, a: Value, b: Value, s: State)
    requires WellFormed(a) && WellFormed(b) && Valid(s.labels)
    requires Unshared(a) && Unshared(b)
    requires Footprint(a) !! s.aVisited.Keys && Footprint(b) !! s.bVisited.Keys
    ensures var r := Walk(env, c, a, b, s);
            r.Done? ==> (NewRecords(s, r.value) == [] <==> Same(env, a, b))
    decreases Size(a), 5
  {
    if a.Value? && b.Value? && (env.policy.ignoreTypeNameDifference || a.typ == b.typ) {
      var t := Guard(env, c, a, b, s).0;
      assert !Guard(env, c, a, b, s).1 && t.out == s.out;
      GuardFrame(env, c, a, b, s);
      WalkContinues(env, c, a, b, s);
      CompareAgrees(env, c, a, b, t);
      var r := Compare(env, c, a, b, t);
      if r.Done? {
        assert NewRecords(s, r.value) == NewRecords(t, r.value);
      }
    }
  }

  lemma {:induction false} CompareAgrees(env: Env, c: Crumb, a: Value, b: Value, s: State)
    requires a.Value? && b.Value?
    requires WellFormed(a) && WellFormed(b) && Valid(s.labels)
    requires Unshared(a) && Unshared(b)
    requires Below(a) !! s.aVisited.Keys && Below(b) !! s.bVisited.Keys
    ensures var r := Compare(env, c, a, b, s);
            r.Done? ==> (NewRecords(s, r.value) == [] <==> Agrees(env, a, b))
    decreases Size(a), 4
  {
    if a.typ !in env.policy.customComparators
       && !(env.policy.numericComparator.Some? && IsNumeric(a) && IsNumeric(b)) {
      StructuralAgrees(env, c, a, b, s);
    }
  }

  lemma {:induction false} StructuralAgrees(env: Env, c: Crumb, a: Value, b: Value, s: State)
    requires a.Value? && b.Value?
    requires WellFormed(a) && WellFormed(b) && Valid(s.labels)
    requires Unshared(a) && Unshared(b)
    requires Below(a) !! s.aVisited.Keys && Below(b) !! s.bVisited.Keys
    ensures var r := Structural(env, c, a, b, s);
            r.Done? ==> (NewRecords(s, r.value) == [] <==> SameData(env, a, b))
    decreases Size(a), 3
  {
    match a.data
    case Array(_) =>
      BelowUnseen(a, s.aVisited.Keys);
      BelowUnseen(b, s.bVisited.Keys);
      ElemsAgrees(env, c, a, b, 0, s);
    case Slice(_) => SliceAgrees(env, c, a, b, s);
    case Iface(h) => IfaceAgrees(env, c, a, b, s);
    case Map(_) => MapAgrees(env, c, a, b, s);
    case Ptr(_, e) => PtrAgrees(env, c, a, b, s);
    case Struct(_) => StructAgrees(env, c, a, b, s);
    case _ => LeafAgrees(env, c, a, b, s);
  }

  /** A kind without children is silent exactly when B reads back equal. */
  lemma LeafAgrees(env: Env, c: Crumb, a: Value, b: Value, s: State)
    requires a.Value? && b.Value? && WellFormed(a) && WellFormed(b)
    requires a.data.Bool? || a.data.Int? || a.data.Uint? || a.data.Float? || a.data.Complex?
          || a.data.Opaque? || a.data.Str?
    ensures var r := Leaf(env, c, a, b, s);
            r.Done? ==> (NewRecords(s, r.value) == [] <==> SameData(env, a, b))
  {
  }

  lemma {:induction false} IfaceAgrees(env: Env, c: Crumb, a: Value, b: Value, s: State)
    requires a.Value? && a.data.Iface? && b.Value?
    requires WellFormed(a) && WellFormed(b) && Valid(s.labels)
    requires Unshared(a) && Unshared(b)
    requires Below(a) !! s.aVisited.Keys && Below(b) !! s.bVisited.Keys
    ensures var r := WalkIface(env, c, a, b, s);
            r.Done? ==> (NewRecords(s, r.value) == [] <==> SameData(env, a, b))
    decreases Size(a), 2
  {
    if ElemOf(b).Done? {
      ChildrenSmaller(a);
      ElemFootprint(a);
      ElemFootprint(b);
      WalkAgrees(env, c, a.data.held, ElemOf(b).value, s);
    }
  }

  lemma {:induction false} SliceAgrees(env: Env, c: Crumb, a: Value, b: Value, s: State)
    requires a.Value? && a.data.Slice? && b.Value?
    requires WellFormed(a) && WellFormed(b) && Valid(s.labels)
    requires Unshared(a) && Unshared(b)
    requires Below(a) !! s.aVisited.Keys && Below(b) !! s.bVisited.Keys
    ensures var r := WalkSlice(env, c, a, b, s);
            r.Done? ==> (NewRecords(s, r.value) == [] <==> SameData(env, a, b))
    decreases Size(a), 2
  {
    if LenOf(b).Done? && LenOf(b).value == |a.data.elems| {
      BelowUnseen(a, s.aVisited.Keys);
      BelowUnseen(b, s.bVisited.Keys);
      ElemsAgrees(env, c, a, b, 0, s);
    }
  }

  lemma {:induction false} PtrAgrees(env: Env, c: Crumb, a: Value, b: Value, s: State)
    requires a.Value? && a.data.Ptr? && b.Value?
    requires WellFormed(a) && WellFormed(b) && Valid(s.labels)
    requires Unshared(a) && Unshared(b)
    requires Below(a) !! s.aVisited.Keys && Below(b) !! s.bVisited.Keys
    ensures var r := WalkPtr(env, c, a, b, s);
            r.Done? ==> (NewRecords(s, r.value) == [] <==> SameData(env, a, b))
    decreases Size(a), 2
  {
    if IsNilOf(b) == Done(false) && a.data.elem.Some? && ElemOf(b).Done? {
      ChildrenSmaller(a);
      ElemFootprint(a);
      ElemFootprint(b);
      WalkAgrees(env, c, a.data.elem.value, ElemOf(b).value, s);
    }
  }

  /** Elements `i`, `i+1`, … add no record exactly when each equals B's
      element at its index. */
  lemma {:induction false} ElemsAgrees(env: Env, c: Crumb, a: Value, b: Value, i: nat, s: State)
    requires a.Value? && (a.data.Array? || a.data.Slice?) && i <= |a.data.elems|
    requires WellFormed(a) && WellFormed(b) && Valid(s.labels)
    requires Unshared(a) && Unshared(b)
    requires ElemsUnseen(a, i, s.aVisited.Keys) && ElemsUnseen(b, i, s.bVisited.Keys)
    ensures var r := WalkElems(env, c, a, b, i, s);
            r.Done? ==> (NewRecords(s, r.value) == [] <==> ElemsSame(env, a, b, i))
    decreases Size(a), 1, |a.data.elems| - i, 1
  {
    if i < |a.data.elems| && IndexOf(b, i).Done? {
      ElemsAgreeStep(env, c, a, b, i, s);
    }
  }

  /** One element, then the rest. */
  lemma {:induction false} ElemsAgreeStep(env: Env, c: Crumb, a: Value, b: Value, i: nat, s: State)
    requires a.Value? && (a.data.Array? || a.data.Slice?) && i < |a.data.elems| && IndexOf(b, i).Done?
    requires WellFormed(a) && WellFormed(b) && Valid(s.labels)
    requires Unshared(a) && Unshared(b)
    requires ElemsUnseen(a, i, s.aVisited.Keys) && ElemsUnseen(b, i, s.bVisited.Keys)
    ensures var r := WalkElems(env, c, a, b, i, s);
            r.Done? ==> (NewRecords(s, r.value) == [] <==> ElemsSame(env, a, b, i))
    decreases Size(a), 1, |a.data.elems| - i, 0
  {
    ChildrenSmaller(a);
    var x := a.data.elems[i];
    var y := b.data.elems[i];
    var d := Relabel(c, IndexSegment(env, i));
    var t := Walk(env, d, x, y, s);
    WalkAgrees(env, d, x, y, s);
    if t.Done? {
      WalkFrame(env, d, x, y, s);
      ElemsUnseenStep(a, i, s.aVisited.Keys, t.value.aVisited.Keys);
      ElemsUnseenStep(b, i, s.bVisited.Keys, t.value.bVisited.Keys);
      ElemsAgrees(env, c, a, b, i + 1, t.value);
      var u := WalkElems(env, c, a, b, i + 1, t.value);
      if u.Done? {
        assert WalkElems(env, c, a, b, i, s) == u;
        NoneAcross(s, t.value, u.value);
      }
    }
  }

  lemma {:induction false} StructAgrees(env: Env, c: Crumb, a: Value, b: Value, s: State)
    requires a.Value? && a.data.Struct? && b.Value?
    requires WellFormed(a) && WellFormed(b) && Valid(s.labels)
    requires Unshared(a) && Unshared(b)
    requires Below(a) !! s.aVisited.Keys && Below(b) !! s.bVisited.Keys
    ensures var r := WalkStruct(env, c, a, b, s);
            r.Done? ==> (NewRecords(s, r.value) == [] <==> SameData(env, a, b))
    decreases Size(a), 2
  {
    var s1 := s.(labels := CaptureLabels(s.labels, c.path, a.data.fields));
    BelowUnseen(a, s.aVisited.Keys);
    BelowUnseen(b, s.bVisited.Keys);
    FieldsAgrees(env, c, a, b, 0, s1);
  }

  /** Fields `i`, `i+1`, … add no record exactly when each equals B's field
      at its position. */
  lemma {:induction false} FieldsAgrees(env: Env, c: Crumb, a: Value, b: Value, i: nat, s: State)
    requires a.Value? && a.data.Struct? && i <= |a.data.fields|
    requires WellFormed(a) && WellFormed(b) && Valid(s.labels)
    requires Unshared(a) && Unshared(b)
    requires FieldsUnseen(a, i, s.aVisited.Keys) && FieldsUnseen(b, i, s.bVisited.Keys)
    ensures var r := WalkFields(env, c, a, b, i, s);
            r.Done? ==> (NewRecords(s, r.value) == [] <==> FieldsSame(env, a, b, i))
    decreases Size(a), 1, |a.data.fields| - i, 1
  {
    if i < |a.data.fields| && FieldOf(b, i).Done? {
      FieldsAgreeStep(env, c, a, b, i, s);
    }
  }

  /** One field, then the rest. */
  lemma {:induction false} FieldsAgreeStep(env: Env, c: Crumb, a: Value, b: Value, i: nat, s: State)
    requires a.Value? && a.data.Struct? && i < |a.data.fields| && FieldOf(b, i).Done?
    requires WellFormed(a) && WellFormed(b) && Valid(s.labels)
    requires Unshared(a) && Unshared(b)
    requires FieldsUnseen(a, i, s.aVisited.Keys) && FieldsUnseen(b, i, s.bVisited.Keys)
    ensures var r := WalkFields(env, c, a, b, i, s);
            r.Done? ==> (NewRecords(s, r.value) == [] <==> FieldsSame(env, a, b, i))
    decreases Size(a), 1, |a.data.fields| - i, 0
  {
    ChildrenSmaller(a);
    var f := a.data.fields[i];
    var y := b.data.fields[i].val;
    var d := Relabel(c, f.name);
    var t := Walk(env, d, f.val, y, s);
    WalkAgrees(env, d, f.val, y, s);
    if t.Done? {
      WalkFrame(env, d, f.val, y, s);
      FieldsUnseenStep(a, i, s.aVisited.Keys, t.value.aVisited.Keys);
      FieldsUnseenStep(b, i, s.bVisited.Keys, t.value.bVisited.Keys);
      FieldsAgrees(env, c, a, b, i + 1, t.value);
      var u := WalkFields(env, c, a, b, i + 1, t.value);
      if u.Done? {
        assert WalkFields(env, c, a, b, i, s) == u;
        NoneAcross(s, t.value, u.value);
      }
    }
  }

  lemma {:induction false} MapAgrees(env: Env, c: Crumb, a: Value, b: Value, s: State)
    requires a.Value? && a.data.Map? && b.Value?
    requires WellFormed(a) && WellFormed(b) && Valid(s.labels)
    requires Unshared(a) && Unshared(b)
    requires Below(a) !! s.aVisited.Keys && Below(b) !! s.bVisited.Keys
    ensures var r := WalkMap(env, c, a, b, s);
            r.Done? ==> (NewRecords(s, r.value) == [] <==> SameData(env, a, b))
    decreases Size(a), 2
  {
    if b.data.Map? {
      MapKeysComparable(a, b);
      var bes := b.data.entries;
      var ks := KeyDiff(Keys(a.data.entries), Keys(bes));
      var t := ReportMissing(env, c, a.data.entries, ks.onlyA, true, s);
      KeysApart(a);
      ApartSubseq(ks.both, Keys(a.data.entries));
      BelowKeysUnseen(a, ks.both, s.aVisited.Keys);
      BelowKeysUnseen(b, ks.both, s.bVisited.Keys);
      CommonAgrees(env, c, a, b, ks.both, t);
      var u := WalkCommon(env, c, a, bes, ks.both, t);
      if u.Done? {
        var w := ReportMissing(env, c, bes, ks.onlyB, false, u.value);
        assert WalkMap(env, c, a, b, s) == Done(w);
        assert |NewRecords(s, w)| == |ks.onlyA| + |NewRecords(t, u.value)| + |ks.onlyB|;
      }
    }
  }

  /** The common keys `ks` add no record exactly when the two elements under
      each are the same. */
  lemma {:induction false} CommonAgrees(env: Env, c: Crumb, a: Value, b: Value, ks: seq<Value>, s: State)
    requires a.Value? && a.data.Map? && b.Value? && b.data.Map? && AllComparable(ks)
    requires WellFormed(a) && WellFormed(b) && Valid(s.labels)
    requires forall i :: 0 <= i < |b.data.entries| ==> WellFormed(b.data.entries[i].val)
    requires Unshared(a) && Unshared(b) && ApartSeq(ks)
    requires KeysUnseen(a.data.entries, ks, s.aVisited.Keys)
    requires KeysUnseen(b.data.entries, ks, s.bVisited.Keys)
    ensures var r := WalkCommon(env, c, a, b.data.entries, ks, s);
            r.Done? ==> (NewRecords(s, r.value) == [] <==> CommonSame(env, a, b.data.entries, ks))
    decreases Size(a), 1, |ks|, 1
  {
    if ks != [] {
      CommonAgreeStep(env, c, a, b, ks, s);
    }
  }

  /** The first common key, then the rest. */
  lemma {:induction false} CommonAgreeStep(env: Env, c: Crumb, a: Value, b: Value, ks: seq<Value>, s: State)
    requires a.Value? && a.data.Map? && b.Value? && b.data.Map? && AllComparable(ks) && ks != []
    requires WellFormed(a) && WellFormed(b) && Valid(s.labels)
    requires forall i :: 0 <= i < |b.data.entries| ==> WellFormed(b.data.entries[i].val)
    requires Unshared(a) && Unshared(b) && ApartSeq(ks)
    requires KeysUnseen(a.data.entries, ks, s.aVisited.Keys)
    requires KeysUnseen(b.data.entries, ks, s.bVisited.Keys)
    ensures var r := WalkCommon(env, c, a, b.data.entries, ks, s);
            r.Done? ==> (NewRecords(s, r.value) == [] <==> CommonSame(env, a, b.data.entries, ks))
    decreases Size(a), 1, |ks|, 0
  {
    var bes := b.data.entries;
    CommonChildren(a, bes, ks[0]);
    MapIndexFootprint(a, ks[0]);
    MapIndexFootprint(b, ks[0]);
    var x := MapIndex(a.data.entries, ks[0]);
    var y := MapIndex(bes, ks[0]);
    var d := Relabel(c, KeySegment(env, ks[0]));
    var t := Walk(env, d, x, y, s);
    WalkAgrees(env, d, x, y, s);
    if t.Done? {
      WalkFrame(env, d, x, y, s);
      KeysUnseenStep(a, ks, s.aVisited.Keys, t.value.aVisited.Keys);
      KeysUnseenStep(b, ks, s.bVisited.Keys, t.value.bVisited.Keys);
      CommonAgrees(env, c, a, b, ks[1..], t.value);
    }
    CommonUnfold(env, c, a, bes, ks, s);
    if t.Done? {
      var u := WalkCommon(env, c, a, bes, ks[1..], t.value);
      if u.Done? {
        CommonJoin(env, a, bes, ks, s, t.value, u.value);
      }
    }
  }

  /** The first common key's records and the rest's, put together: none
      exactly when neither part adds one. */
  lemma CommonJoin(env: Env, a: Value, bes: seq<Entry>, ks: seq<Value>, s: State, t: State, u: State)
    requires a.Value? && a.data.Map? && AllComparable(ks) && ks != [] && WellFormed(a)
    requires forall i :: 0 <= i < |bes| ==> WellFormed(bes[i].val)
    requires Results(s.out) <= Results(t.out) && Results(t.out) <= Results(u.out)
    requires NewRecords(s, t) == [] <==> SameUnder(env, a, bes, ks[0])
    requires NewRecords(t, u) == [] <==> CommonSame(env, a, bes, ks[1..])
    ensures NewRecords(s, u) == [] <==> CommonSame(env, a, bes, ks)
  {
    NoneAcross(s, t, u);
  }

  /** The first common key's walk, then the rest from the state it leaves. */
  lemma CommonUnfold(env: Env, c: Crumb, a: Value, bes: seq<Entry>, ks: seq<Value>, s: State)
    requires a.Value? && a.data.Map? && AllComparable(ks) && ks != []
    requires WellFormed(a) && Valid(s.labels)
    requires forall i :: 0 <= i < |bes| ==> WellFormed(bes[i].val)
    ensures (CommonChildren(a, bes, ks[0]);
             var t := Walk(env, Relabel(c, KeySegment(env, ks[0])),
                           MapIndex(a.data.entries, ks[0]), MapIndex(bes, ks[0]), s);
             && (t.Panic? ==> WalkCommon(env, c, a, bes, ks, s).Panic?)
             && (t.Done? ==> WalkCommon(env, c, a, bes, ks, s) == WalkCommon(env, c, a, bes, ks[1..], t.value)))
  {
    CommonChildren(a, bes, ks[0]);
  }

  /** Both entry points report `ok` exactly when the two values are the same
      under the comparator's policy, for two values with no shared node; a
      walk that panics reports nothing. */
  lemma DiffOkIffSame(fmt: Formatter, sep: string, opts: CustomDiff.Options, a: Value, b: Value)
    requires WellFormed(a) && WellFormed(b) && Unshared(a) && Unshared(b)
    ensures var r := CustomDiff.StructuredDiff(fmt, sep, opts, a, b);
            r.Done? ==> (r.value.1 <==> Same(Env(fmt, CustomDiff.PolicyOf(opts), sep), a, b))
    ensures var r := CustomDiff.Diff(fmt, sep, opts, a, b);
            r.Done? ==> (r.value.1 <==> Same(Env(fmt, CustomDiff.PolicyOf(opts), sep), a, b))
  {
    var s := CustomDiff.Fresh(opts.labelFieldNames);
    WalkAgrees(Env(fmt, CustomDiff.PolicyOf(opts), sep), Root, a, b, s);
    CustomDiff.DiffAgreesWithStructured(fmt, sep, opts, a, b);
  }
}

=== FILE: basics.dfy ===
/** Small shared vocabulary: optional values, the outcome of an operation that
    may abort the way a Go panic does, and sequence ordering relations. */
module Basics {

  datatype Option<+T> = None | Some(value: T)

  /** The result of a computation that either finishes with a value or aborts
      the whole call, as a Go `panic` does. Failure-compatible, so `:-` works. */
  datatype Outcome<+T> = Done(value: T) | Panic(reason: string) {

    predicate IsFailure() {
      Panic?
    }

    function PropagateFailure<U>(): Outcome<U>
      requires Panic?
    {
      Panic(reason)
    }

    function Extract(): T
      requires Done?
    {
      value
    }
  }

  /** `xs` can be obtained from `ys` by deleting elements, keeping the order. */
  predicate IsSubseq<T(==)>(xs: seq<T>, ys: seq<T>)
    decreases |ys|
  {
    if xs == [] then true
    else if ys == [] then false
    else if xs[0] == ys[0] then IsSubseq(xs[1..], ys[1..])
    else IsSubseq(xs, ys[1..])
  }

  lemma {:induction false} SubseqMembers<T>(xs: seq<T>, ys: seq<T>)
    requires IsSubseq(xs, ys)
    ensures forall x :: x in xs ==> x in ys
    ensures |xs| <= |ys|
    decreases |ys|
  {
    if xs == [] {
    } else if ys == [] {
    } else if xs[0] == ys[0] {
      SubseqMembers(xs[1..], ys[1..]);
      assert forall x :: x in xs ==> x == xs[0] || x in xs[1..];
    } else {
      SubseqMembers(xs, ys[1..]);
    }
  }

  /** `p` is a prefix of `s` and strictly shorter than it. */
  predicate IsProperPrefix<T(==)>(p: seq<T>, s: seq<T>) {
    p <= s && |p| < |s|
  }
}

=== FILE: breadcrumbs.dfy ===
/** The breadcrumb string operations the label store relies on: Go's
    `strings.Split` and its inverse `strings.Join`. */
module Breadcrumbs {

  /** Go's `strings.Split(s, sep)`. A non-empty separator cuts `s` at every
      non-overlapping occurrence, scanning left to right, and always yields at
      least one part; an empty separator explodes `s` into its characters and
      yields no part at all for the empty string. */
  function Split(s: string, sep: string): (parts: seq<string>)
    ensures sep != "" ==> |parts| >= 1
    ensures sep == "" ==> |parts| == |s|
    decreases |s|
  {
    if sep == "" then Explode(s)
    else if |s| < |sep| then [s]
    else if s[..|sep|] == sep then [""] + Split(s[|sep|..], sep)
    else
      var rest := Split(s[1..], sep);
      [[s[0]] + rest[0]] + rest[1..]
  }

  function Explode(s: string): (parts: seq<string>)
    ensures |parts| == |s|
    ensures forall i :: 0 <= i < |s| ==> parts[i] == [s[i]]
  {
    seq(|s|, i requires 0 <= i < |s| => [s[i]])
  }

  /** Go's `strings.Join(parts, sep)`. */
  function Join(parts: seq<string>, sep: string): string
  {
    if |parts| == 0 then ""
    else if |parts| == 1 then parts[0]
    else parts[0] + sep + Join(parts[1..], sep)
  }

  /** `sep` occurs in `s` at position `i`. */
  predicate OccursAt(s: string, sep: string, i: int) {
    0 <= i && i + |sep| <= |s| && s[i..i + |sep|] == sep
  }

  /** `s` contains `sep` somewhere. */
  predicate Contains(s: string, sep: string) {
    exists i :: 0 <= i <= |s| && OccursAt(s, sep, i)
  }

  /** Joining the parts of a split restores the original string. */
  lemma {:induction false} JoinSplit(s: string, sep: string)
    ensures Join(Split(s, sep), sep) == s
    decreases |s|, 1
  {
    if sep == "" {
      ExplodeJoin(s);
    } else if |s| < |sep| {
    } else if s[..|sep|] == sep {
      JoinSplitAtSep(s, sep);
    } else {
      JoinSplitAtChar(s, sep);
    }
  }

  /** The case of a string that starts with the separator. */
  lemma {:induction false} JoinSplitAtSep(s: string, sep: string)
    requires sep != "" && |s| >= |sep| && s[..|sep|] == sep
    ensures Join(Split(s, sep), sep) == s
    decreases |s|, 0
  {
    var tl := s[|sep|..];
    JoinSplit(tl, sep);
    var rest := Split(tl, sep);
    assert Split(s, sep) == [""] + rest;
    assert ([""] + rest)[1..] == rest;
    assert Join([""] + rest, sep) == "" + sep + Join(rest, sep);
    assert s == sep + tl;
  }

  /** The case of a string that does not start with the separator. */
  lemma {:induction false} JoinSplitAtChar(s: string, sep: string)
    requires sep != "" && |s| >= |sep| && s[..|sep|] != sep
    ensures Join(Split(s, sep), sep) == s
    decreases |s|, 0
  {
    var tl := s[1..];
    JoinSplit(tl, sep);
    var rest := Split(tl, sep);
    assert Split(s, sep) == [[s[0]] + rest[0]] + rest[1..];
    JoinPrepend(s[0], rest, sep);
    assert s == [s[0]] + tl;
  }

  /** Putting a character in front of the first part puts it in front of
      the joined string. */
  lemma JoinPrepend(ch: char, parts: seq<string>, sep: string)
    requires |parts| >= 1
    ensures Join([[ch] + parts[0]] + parts[1..], sep) == [ch] + Join(parts, sep)
  {
    var q := [[ch] + parts[0]] + parts[1..];
    assert q[1..] == parts[1..];
  }

  lemma {:induction false} ExplodeJoin(s: string)
    ensures Join(Explode(s), "") == s
    decreases |s|
  {
    if |s| > 1 {
      ExplodeJoin(s[1..]);
      assert Explode(s)[1..] == Explode(s[1..]);
      assert s == [s[0]] + s[1..];
    }
  }

  /** No part produced by a non-empty separator contains the separator. */
  lemma {:induction false} SplitPartsFree(s: string, sep: string)
    requires sep != ""
    ensures forall p :: p in Split(s, sep) ==> !Contains(p, sep)
    decreases |s|
  {
    var parts := Split(s, sep);
    if |s| < |sep| {
      assert parts == [s];
      assert !Contains(s, sep);
    } else if s[..|sep|] == sep {
      SplitPartsFree(s[|sep|..], sep);
      var rest := Split(s[|sep|..], sep);
      assert parts == [""] + rest;
      assert !Contains("", sep);
    } else {
      SplitPartsFree(s[1..], sep);
      var rest := Split(s[1..], sep);
      var first := [s[0]] + rest[0];
      assert parts == [first] + rest[1..];
      PrefixOfSplit(s[1..], sep);
      FirstPartFree(s, sep, rest[0]);
      forall p | p in parts ensures !Contains(p, sep) {
        if p != first {
          assert p in rest;
        }
      }
    }
  }

  /** Putting back the first character of `s`, which does not start with
      `sep`, in front of a `sep`-free prefix of the rest of `s` gives a
      `sep`-free string. */
  lemma FirstPartFree(s: string, sep: string, q: string)
    requires sep != "" && |s| >= |sep| && s[..|sep|] != sep
    requires q <= s[1..] && !Contains(q, sep)
    ensures !Contains([s[0]] + q, sep)
  {
    var first := [s[0]] + q;
    assert first <= s;
    forall i | 0 <= i <= |first| ensures !OccursAt(first, sep, i) {
      if i > 0 && OccursAt(first, sep, i) {
        assert q[i - 1..i - 1 + |sep|] == first[i..i + |sep|];
        assert OccursAt(q, sep, i - 1);
      }
    }
  }

  /** The first part of a split is a prefix of the split string. */
  lemma {:induction false} PrefixOfSplit(s: string, sep: string)
    requires sep != ""
    ensures Split(s, sep)[0] <= s
    decreases |s|
  {
    if |s| < |sep| {
    } else if s[..|sep|] == sep {
    } else {
      PrefixOfSplit(s[1..], sep);
    }
  }

  /** Split cuts at the leftmost occurrence: no occurrence of the separator
      in `s` starts before the end of the first part, even one that would
      overlap the first cut. */
  lemma {:induction false} SplitLeftmost(s: string, sep: string)
    requires sep != ""
    ensures forall j :: 0 <= j < |Split(s, sep)[0]| ==> !OccursAt(s, sep, j)
    decreases |s|
  {
    if |s| < |sep| {
    } else if s[..|sep|] == sep {
    } else {
      SplitLeftmost(s[1..], sep);
      var rest := Split(s[1..], sep);
      assert Split(s, sep)[0] == [s[0]] + rest[0];
      forall j | 0 < j < |Split(s, sep)[0]| ensures !OccursAt(s, sep, j) {
        assert !OccursAt(s[1..], sep, j - 1);
        if j + |sep| <= |s| {
          assert s[1..][j - 1..j - 1 + |sep|] == s[j..j + |sep|];
        }
      }
    }
  }

  /** A string without the separator character is a single part. */
  lemma {:induction false} SplitWithoutSeparator(s: string, d: char)
    requires d !in s
    ensures Split(s, [d]) == [s]
    decreases |s|
  {
    if |s| >= 1 {
      assert s[0] in s;
      assert s[1..] == s[1..];
      assert forall x :: x in s[1..] ==> x in s;
      SplitWithoutSeparator(s[1..], d);
      assert [s[0]] + s[1..] == s;
    }
  }

  /** With a one-character separator, splitting `x + sep + y` splits `x` and
      `y` independently: the separator cannot straddle the seam. */
  lemma {:induction false} SplitAtSeparator(x: string, y: string, d: char)
    ensures Split(x + [d] + y, [d]) == Split(x, [d]) + Split(y, [d])
    decreases |x|, 1
  {
    var sep := [d];
    var s := x + sep + y;
    if |x| == 0 {
      assert s == sep + y;
      assert s[..1] == sep;
      assert s[1..] == y;
      assert Split(s, sep) == [""] + Split(y, sep);
      assert Split(x, sep) == [""];
    } else if x[0] == d {
      SeamAfterSeparator(x, y, d);
    } else {
      SeamAfterChar(x, y, d);
    }
  }

  /** The case of an `x` that starts with the separator. */
  lemma {:induction false} SeamAfterSeparator(x: string, y: string, d: char)
    requires |x| > 0 && x[0] == d
    ensures Split(x + [d] + y, [d]) == Split(x, [d]) + Split(y, [d])
    decreases |x|, 0
  {
    var sep := [d];
    var s := x + sep + y;
    assert s[1..] == x[1..] + sep + y;
    SplitAtSeparator(x[1..], y, d);
    assert s[..1] == sep;
    assert x[..1] == sep;
    assert Split(s, sep) == [""] + Split(s[1..], sep);
    assert Split(x, sep) == [""] + Split(x[1..], sep);
  }

  /** The case of an `x` that starts with another character. */
  lemma {:induction false} SeamAfterChar(x: string, y: string, d: char)
    requires |x| > 0 && x[0] != d
    ensures Split(x + [d] + y, [d]) == Split(x, [d]) + Split(y, [d])
    decreases |x|, 0
  {
    var s := x + [d] + y;
    assert s[1..] == x[1..] + [d] + y;
    assert s[0] == x[0];
    SplitAtSeparator(x[1..], y, d);
    SplitFirstChar(s, d);
    SplitFirstChar(x, d);
    var tail := Split(x[1..], [d]);
    ReplaceHead([x[0]] + tail[0], tail, Split(y, [d]));
  }

  /** Replacing the head of a non-empty `t` before appending `u`. */
  lemma ReplaceHead<T>(h: T, t: seq<T>, u: seq<T>)
    requires |t| >= 1
    ensures [h] + (t + u)[1..] == ([h] + t[1..]) + u
  {
    assert (t + u)[1..] == t[1..] + u;
  }

  /** A string that does not start with a one-character separator: its
      first character joins the first part of the rest. */
  lemma SplitFirstChar(s: string, d: char)
    requires |s| > 0 && s[0] != d
    ensures Split(s, [d]) == [[s[0]] + Split(s[1..], [d])[0]] + Split(s[1..], [d])[1..]
  {
    assert s[..1] != [d] by {
      assert s[..1][0] == s[0];
    }
  }
}

=== FILE: custom_diff.dfy ===
/** The configurable comparator: functional options, the numeric tolerance
    comparator, and the two entry points that run one walk from fresh state
    and report whether it found nothing. */
module CustomDiff {
  import opened Basics
  import opened Values
  import Out = StructuredOutput
  import opened LabelStore
  import opened Walker
  import opened WalkerProps

  /** `defaultPrecision`: the guard band added to every numeric tolerance. */
  const DefaultPrecision: real := 0.0000001

  /** One functional option (`WithIgnoreTypeNameDiffs`, `WithPrecision`,
      `WithCustomComparators`, `WithLabelFields`, `WithNumericEpsilon`). */
  datatype Opt =
    | IgnoreTypeNameDiffs(ignore: bool)
    | Precision(precision: real)
    | CustomComparators(comparators: map<TypeId, Equals>)
    | LabelFields(names: seq<string>)
    | NumericEpsilon(epsilon: real)

  /** The configuration options build. `numericEpsilon` is the tolerance the
      numeric comparator was created with; `precision` is the guard band it
      reads when it runs. */
  datatype Options = Options(
    customComparators: map<TypeId, Equals>,
    numericEpsilon: Option<real>,
    ignoreTypeNameDifference: bool,
    labelFieldNames: seq<string>,
    precision: real)

  /** The starting configuration of `NewCustomDiff`. */
  function Defaults(): (o: Options)
    ensures o.customComparators == map[] && o.numericEpsilon.None?
    ensures !o.ignoreTypeNameDifference && o.labelFieldNames == []
    ensures o.precision == DefaultPrecision
  {
    Options(map[], None, false, [], DefaultPrecision)
  }

  // What an option sets, if anything, one field at a time.
  function PickIgnore(o: Opt): Option<bool> {
    if o.IgnoreTypeNameDiffs? then Some(o.ignore) else None
  }
  function PickPrecision(o: Opt): Option<real> {
    if o.Precision? then Some(o.precision) else None
  }
  function PickComparators(o: Opt): Option<map<TypeId, Equals>> {
    if o.CustomComparators? then Some(o.comparators) else None
  }
  function PickLabels(o: Opt): Option<seq<string>> {
    if o.LabelFields? then Some(o.names) else None
  }
  function PickEpsilon(o: Opt): Option<real> {
    if o.NumericEpsilon? then Some(o.epsilon) else None
  }

  function OrElse<T>(x: Option<T>, d: T): T {
    if x.Some? then x.value else d
  }

  /** Applies one option: it sets its own field and leaves every other
      field as it was. */
  function Apply(o: Opt, opts: Options): (r: Options)
    ensures r.ignoreTypeNameDifference == OrElse(PickIgnore(o), opts.ignoreTypeNameDifference)
    ensures r.precision == OrElse(PickPrecision(o), opts.precision)
    ensures r.customComparators == OrElse(PickComparators(o), opts.customComparators)
    ensures r.labelFieldNames == OrElse(PickLabels(o), opts.labelFieldNames)
    ensures r.numericEpsilon == if o.NumericEpsilon? then Some(o.epsilon) else opts.numericEpsilon
  {
    match o
    case IgnoreTypeNameDiffs(x) => opts.(ignoreTypeNameDifference := x)
    case Precision(x) => opts.(precision := x)
    case CustomComparators(x) => opts.(customComparators := x)
    case LabelFields(x) => opts.(labelFieldNames := x)
    case NumericEpsilon(x) => opts.(numericEpsilon := Some(x))
  }

  /** Applies the options in the order given. */
  function ApplyAll(os: seq<Opt>, opts: Options): Options
    decreases |os|
  {
    if os == [] then opts else ApplyAll(os[1..], Apply(os[0], opts))
  }

  /** The value the last option of one kind sets, scanning from the back. */
  function Last<T>(os: seq<Opt>, pick: Opt -> Option<T>): (r: Option<T>)
    ensures r.Some? ==> exists i :: 0 <= i < |os| && pick(os[i]) == r
    ensures r.None? ==> forall i :: 0 <= i < |os| ==> pick(os[i]).None?
    decreases |os|
  {
    if os == [] then None
    else if pick(os[|os| - 1]).Some? then pick(os[|os| - 1])
    else Last(os[..|os| - 1], pick)
  }

  /** Appending one more option applies it after all the others. */
  lemma {:induction false} ApplyAllSnoc(os: seq<Opt>, x: Opt, opts: Options)
    ensures ApplyAll(os + [x], opts) == Apply(x, ApplyAll(os, opts))
    decreases |os|
  {
    if os == [] {
      assert [x][1..] == [];
    } else {
      assert (os + [x])[1..] == os[1..] + [x];
      ApplyAllSnoc(os[1..], x, Apply(os[0], opts));
    }
  }

  /** Options are applied in order and a later option of a kind overrides
      an earlier one: every field holds what the last option of its kind
      set, or its starting value if no option of that kind was given. */
  lemma {:induction false} LastOptionWins(os: seq<Opt>, opts: Options)
    ensures ApplyAll(os, opts).ignoreTypeNameDifference ==
              OrElse(Last(os, PickIgnore), opts.ignoreTypeNameDifference)
    ensures ApplyAll(os, opts).precision == OrElse(Last(os, PickPrecision), opts.precision)
    ensures ApplyAll(os, opts).customComparators ==
              OrElse(Last(os, PickComparators), opts.customComparators)
    ensures ApplyAll(os, opts).labelFieldNames == OrElse(Last(os, PickLabels), opts.labelFieldNames)
    ensures ApplyAll(os, opts).numericEpsilon ==
              if Last(os, PickEpsilon).Some? then Last(os, PickEpsilon) else opts.numericEpsilon
    decreases |os|
  {
    if os != [] {
      var init := os[..|os| - 1];
      var x := os[|os| - 1];
      assert os == init + [x];
      ApplyAllSnoc(init, x, opts);
      LastOptionWins(init, opts);
    }
  }

  /** `newMustAbsoluteDeltaLessThan(e)` over exact reals: two numbers are
      equal when they differ by at most `e` plus the guard band `g`. */
  predicate WithinTolerance(x: real, y: real, e: real, g: real) {
    (if x >= y then x - y else y - x) <= e + g
  }

  /** The tolerance comparator does not care which side is which. */
  lemma ToleranceSymmetric(x: real, y: real, e: real, g: real)
    ensures WithinTolerance(x, y, e, g) == WithinTolerance(y, x, e, g)
  {
  }

  /** It accepts every number against itself exactly when the tolerance
      and the guard band together are not negative. */
  lemma ToleranceReflexive(e: real, g: real)
    ensures (forall x :: WithinTolerance(x, x, e, g)) <==> e + g >= 0.0
  {
    if e + g < 0.0 {
      assert !WithinTolerance(0.0, 0.0, e, g);
    }
  }

  /** The numeric comparator a configuration produces, if any. */
  function NumericComparator(opts: Options): (r: Option<Float64Equals>)
    ensures r.Some? <==> opts.numericEpsilon.Some?
    ensures r.Some? ==>
              forall x, y :: r.value(x, y) == WithinTolerance(x, y, opts.numericEpsilon.value, opts.precision)
  {
    if opts.numericEpsilon.Some? then
      var e := opts.numericEpsilon.value;
      var g := opts.precision;
      Some((x, y) => WithinTolerance(x, y, e, g))
    else None
  }

  function PolicyOf(opts: Options): Policy
  {
    Policy(opts.ignoreTypeNameDifference, opts.customComparators, NumericComparator(opts))
  }

  /** `NewCustomDiff(options...)`: the defaults with the options applied in
      order. */
  function NewCustomDiff(os: seq<Opt>): (opts: Options)
    ensures opts.ignoreTypeNameDifference == OrElse(Last(os, PickIgnore), false)
    ensures opts.precision == OrElse(Last(os, PickPrecision), DefaultPrecision)
    ensures opts.customComparators == OrElse(Last(os, PickComparators), map[])
    ensures opts.labelFieldNames == OrElse(Last(os, PickLabels), [])
    ensures opts.numericEpsilon == Last(os, PickEpsilon)
  {
    LastOptionWins(os, Defaults());
    ApplyAll(os, Defaults())
  }

  /** The state each call starts from: nothing visited, no label recorded
      at any level, no line and no record. */
  function Fresh(names: seq<string>): (s: State)
    ensures s.aVisited == map[] && s.bVisited == map[]
    ensures s.labels.levels == map[] && s.labels.names == names && Valid(s.labels)
    ensures s.lines == [] && Out.Results(s.out) == []
  {
    State(map[], map[], NewLabels(names), [], Out.NewStructuredDiffer())
  }

  /** `customDiffPrinter.Diff`: the text lines of one walk from fresh state,
      and whether there were none. */
  function Diff(fmt: Formatter, sep: string, opts: Options, a: Value, b: Value)
    : (r: Outcome<(seq<string>, bool)>)
    requires WellFormed(a) && WellFormed(b)
    ensures r.Done? ==> (r.value.1 <==> r.value.0 == [])
  {
    var t :- Walk(Env(fmt, PolicyOf(opts), sep), Root, a, b, Fresh(opts.labelFieldNames));
    Done((t.lines, |t.lines| == 0))
  }

  /** `customDiffPrinter.StructuredDiff`: the records of one walk from fresh
      state, and whether there were none. The text lines are discarded. */
  function StructuredDiff(fmt: Formatter, sep: string, opts: Options, a: Value, b: Value)
    : (r: Outcome<(seq<Out.StructuredDiff>, bool)>)
    requires WellFormed(a) && WellFormed(b)
    ensures r.Done? ==> (r.value.1 <==> r.value.0 == [])
  {
    var t :- Walk(Env(fmt, PolicyOf(opts), sep), Root, a, b, Fresh(opts.labelFieldNames));
    Done((Out.Results(t.out), |Out.Results(t.out)| == 0))
  }

  /** The package-level `Diff` (through `Pdiff`): a walk with no options and
      no label names, returning the text lines. */
  function PackageDiff(fmt: Formatter, sep: string, a: Value, b: Value): Outcome<seq<string>>
    requires WellFormed(a) && WellFormed(b)
  {
    var t :- Walk(Env(fmt, Policy(false, map[], None), sep), Root, a, b, Fresh([]));
    Done(t.lines)
  }

  /** The package-level `Diff` is a comparator built with no options. */
  lemma PackageDiffIsDefault(fmt: Formatter, sep: string, a: Value, b: Value)
    requires WellFormed(a) && WellFormed(b)
    ensures PackageDiff(fmt, sep, a, b).Done? <==> Diff(fmt, sep, NewCustomDiff([]), a, b).Done?
    ensures PackageDiff(fmt, sep, a, b).Done? ==>
              PackageDiff(fmt, sep, a, b).value == Diff(fmt, sep, NewCustomDiff([]), a, b).value.0
  {
  }

  /** Both entry points see the same differences: one text line per record,
      so they agree on `ok`. */
  lemma DiffAgreesWithStructured(fmt: Formatter, sep: string, opts: Options, a: Value, b: Value)
    requires WellFormed(a) && WellFormed(b)
    ensures Diff(fmt, sep, opts, a, b).Done? <==> StructuredDiff(fmt, sep, opts, a, b).Done?
    ensures Diff(fmt, sep, opts, a, b).Done? ==>
              && |Diff(fmt, sep, opts, a, b).value.0| == |StructuredDiff(fmt, sep, opts, a, b).value.0|
              && Diff(fmt, sep, opts, a, b).value.1 == StructuredDiff(fmt, sep, opts, a, b).value.1
  {
  }

  /** A value compared with itself is reported equal by both entry points,
      provided every registered comparator is reflexive and the numeric
      tolerance plus guard band is not negative. */
  lemma DiffReflexive(fmt: Formatter, sep: string, opts: Options, a: Value)
    requires WellFormed(a)
    requires forall t, v :: t in opts.customComparators ==> opts.customComparators[t](v, v)
    requires opts.numericEpsilon.Some? ==> opts.numericEpsilon.value + opts.precision >= 0.0
    ensures Diff(fmt, sep, opts, a, a) == Done(([], true))
    ensures StructuredDiff(fmt, sep, opts, a, a) == Done(([], true))
  {
    var p := PolicyOf(opts);
    if opts.numericEpsilon.Some? {
      ToleranceReflexive(opts.numericEpsilon.value, opts.precision);
    }
    assert Reflexive(p);
    SelfWalk(Env(fmt, p, sep), Root, a, Fresh(opts.labelFieldNames));
  }
}

=== FILE: footprint.dfy ===
/** Which (address, type) pairs a walk can add to the cycle guard's visited
    maps: the footprint of a value is the set of its addressable nodes,
    itself and everything below it. A walk records nothing outside the
    footprints of the two values it is given, and a value none of whose
    nodes share an address meets the guard at most once per node. */
module Footprints {
  import opened Basics
  import opened Values
  import opened KeyPartition
  import opened LabelStore
  import opened Walker

  /** The guard's key for `v` itself, when `v` is addressable. */
  ghost function Own(v: Value): set<Visit> {
    if v.Value? && v.addr.Some? then {Visit(v.addr.value, v.typ)} else {}
  }

  /** The guard keys of `v` and of every node below it. */
  ghost function Footprint(v: Value): set<Visit>
    decreases Size(v), 1
  {
    if v.Invalid? then {} else Own(v) + Below(v)
  }

  /** The guard keys of the nodes strictly below `v`: its elements, its map
      elements (keys are never walked), its pointee, the value it holds, its
      fields. */
  ghost function Below(v: Value): set<Visit>
    requires v.Value?
    decreases Size(v), 0
  {
    ChildrenSmaller(v);
    match v.data
    case Array(es) => set i, x | 0 <= i < |es| && x in Footprint(es[i]) :: x
    case Slice(es) => set i, x | 0 <= i < |es| && x in Footprint(es[i]) :: x
    case Map(es) => set i, x | 0 <= i < |es| && x in Footprint(es[i].val) :: x
    case Ptr(_, e) => if e.Some? then Footprint(e.value) else {}
    case Iface(h) => Footprint(h)
    case Struct(fs) => set i, x | 0 <= i < |fs| && x in Footprint(fs[i].val) :: x
    case _ => {}
  }

  /** Two map keys no key equals both of: looking them up never finds the
      same entry. Distinct keys of a Go map are apart. */
  ghost predicate Apart(x: Value, y: Value)
    requires Comparable(x) && Comparable(y)
  {
    forall e :: !(KeyEqual(x, e) && KeyEqual(y, e))
  }

  /** Every two keys of `ks` at distinct positions are apart. */
  ghost predicate ApartSeq(ks: seq<Value>)
    requires AllComparable(ks)
  {
    forall i, j :: 0 <= i < j < |ks| ==> Apart(ks[i], ks[j])
  }

  /** No two nodes of `v` share a guard key, and the keys of every map in
      `v` are pairwise apart: a tree, with no pointer into a part of itself
      and no two pointers to one place. */
  ghost predicate Unshared(v: Value)
    decreases Size(v)
  {
    match v
    case Invalid => true
    case Value(_, _, d) =>
      && Own(v) !! Below(v)
      && (ChildrenSmaller(v);
          match d
          case Array(es) =>
            && (forall i :: 0 <= i < |es| ==> Unshared(es[i]))
            && (forall i, j :: 0 <= i < j < |es| ==> Footprint(es[i]) !! Footprint(es[j]))
          case Slice(es) =>
            && (forall i :: 0 <= i < |es| ==> Unshared(es[i]))
            && (forall i, j :: 0 <= i < j < |es| ==> Footprint(es[i]) !! Footprint(es[j]))
          case Map(es) =>
            && (forall i :: 0 <= i < |es| ==> Unshared(es[i].val))
            && (forall i, j :: 0 <= i < j < |es| ==> Footprint(es[i].val) !! Footprint(es[j].val))
            && (forall i, j :: 0 <= i < j < |es| ==>
                  Comparable(es[i].key) && Comparable(es[j].key) && Apart(es[i].key, es[j].key))
          case Ptr(_, e) => e.Some? ==> Unshared(e.value)
          case Iface(h) => Unshared(h)
          case Struct(fs) =>
            && (forall i :: 0 <= i < |fs| ==> Unshared(fs[i].val))
            && (forall i, j :: 0 <= i < j < |fs| ==> Footprint(fs[i].val) !! Footprint(fs[j].val))
          case _ => true)
  }

  // ---------------------------------------------------------------------
  // Where the children's footprints lie
  // ---------------------------------------------------------------------

  /** What `Elem` reads from a pointer or an interface lies below it, and
      is unshared when the pointer or interface is. */
  lemma ElemFootprint(v: Value)
    requires v.Value? && (v.data.Ptr? || v.data.Iface?)
    ensures Footprint(ElemOf(v).value) <= Below(v)
    ensures Unshared(v) ==> Unshared(ElemOf(v).value)
  {
  }

  /** The element looked up under a key lies below its map, and is unshared
      when the map is. */
  lemma MapIndexFootprint(v: Value, k: Value)
    requires v.Value? && v.data.Map? && Comparable(k)
    ensures Footprint(MapIndex(v.data.entries, k)) <= Below(v)
    ensures Unshared(v) ==> Unshared(MapIndex(v.data.entries, k))
  {
    var es := v.data.entries;
    match Find(es, k)
    case None =>
    case Some(p) =>
      assert MapIndex(es, k) == es[p].val;
  }

  /** Two apart keys look up elements with no guard key in common. */
  lemma MapIndexApart(v: Value, k1: Value, k2: Value)
    requires v.Value? && v.data.Map? && Unshared(v)
    requires Comparable(k1) && Comparable(k2) && Apart(k1, k2)
    ensures Footprint(MapIndex(v.data.entries, k1)) !! Footprint(MapIndex(v.data.entries, k2))
  {
    var es := v.data.entries;
    var f1 := Find(es, k1);
    var f2 := Find(es, k2);
    if f1.Some? && f2.Some? {
      var p := f1.value;
      var q := f2.value;
      // one entry under both keys would be a key equal to both
      assert p != q by {
        assert !(KeyEqual(k1, es[p].key) && KeyEqual(k2, es[p].key));
      }
      assert MapIndex(es, k1) == es[p].val && MapIndex(es, k2) == es[q].val;
      if p < q {
        assert Footprint(es[p].val) !! Footprint(es[q].val);
      } else {
        assert Footprint(es[q].val) !! Footprint(es[p].val);
      }
    } else {
      assert MapIndex(es, k1).Invalid? || MapIndex(es, k2).Invalid?;
    }
  }

  /** A sub-sequence of pairwise apart keys is pairwise apart. */
  lemma {:induction false} ApartSubseq(xs: seq<Value>, ys: seq<Value>)
    requires IsSubseq(xs, ys) && AllComparable(ys) && ApartSeq(ys)
    ensures AllComparable(xs) && ApartSeq(xs)
    decreases |ys|
  {
    SubseqMembers(xs, ys);
    if xs != [] && ys != [] {
      if xs[0] == ys[0] {
        ApartSubseq(xs[1..], ys[1..]);
        SubseqMembers(xs[1..], ys[1..]);
        forall j | 0 < j < |xs| ensures Apart(xs[0], xs[j]) {
          assert xs[j] in ys[1..] by { assert xs[j] == xs[1..][j - 1]; }
          var m :| 0 <= m < |ys[1..]| && ys[1..][m] == xs[j];
          assert ys[m + 1] == xs[j];
        }
      } else {
        ApartSubseq(xs, ys[1..]);
      }
    }
  }

  /** The keys of an unshared map are pairwise apart. */
  lemma KeysApart(v: Value)
    requires v.Value? && v.data.Map? && WellFormed(v) && Unshared(v)
    ensures AllComparable(Keys(v.data.entries)) && ApartSeq(Keys(v.data.entries))
  {
  }

  // ---------------------------------------------------------------------
  // The children a loop has still to walk are unseen
  // ---------------------------------------------------------------------

  /** Elements `i`, `i+1`, … of `v`, when it has elements, have no key in
      `seen`. */
  ghost predicate ElemsUnseen(v: Value, i: nat, seen: set<Visit>) {
    v.Value? && (v.data.Array? || v.data.Slice?) ==>
      forall j :: i <= j < |v.data.elems| ==> Footprint(v.data.elems[j]) !! seen
  }

  /** Fields `i`, `i+1`, … of `v`, when it is a struct, have no key in
      `seen`. */
  ghost predicate FieldsUnseen(v: Value, i: nat, seen: set<Visit>) {
    v.Value? && v.data.Struct? ==>
      forall j :: i <= j < |v.data.fields| ==> Footprint(v.data.fields[j].val) !! seen
  }

  /** The elements of `es` under the keys `ks` have no key in `seen`. */
  ghost predicate KeysUnseen(es: seq<Entry>, ks: seq<Value>, seen: set<Visit>)
    requires AllComparable(ks)
  {
    forall j :: 0 <= j < |ks| ==> Footprint(MapIndex(es, ks[j])) !! seen
  }

  /** A value whose nodes below it are unseen has every child unseen. */
  lemma BelowUnseen(v: Value, seen: set<Visit>)
    requires v.Value? && Below(v) !! seen
    ensures ElemsUnseen(v, 0, seen) && FieldsUnseen(v, 0, seen)
  {
    if v.data.Array? || v.data.Slice? {
      forall j | 0 <= j < |v.data.elems| ensures Footprint(v.data.elems[j]) !! seen {
        ElemBelow(v, j);
      }
    }
    if v.data.Struct? {
      forall j | 0 <= j < |v.data.fields| ensures Footprint(v.data.fields[j].val) !! seen {
        FieldBelow(v, j);
      }
    }
  }

  /** A map whose nodes below it are unseen has every looked-up element
      unseen. */
  lemma BelowKeysUnseen(v: Value, ks: seq<Value>, seen: set<Visit>)
    requires v.Value? && v.data.Map? && AllComparable(ks) && Below(v) !! seen
    ensures KeysUnseen(v.data.entries, ks, seen)
  {
    forall j | 0 <= j < |ks| ensures Footprint(MapIndex(v.data.entries, ks[j])) !! seen {
      MapIndexFootprint(v, ks[j]);
    }
  }

  /** After element `i` is walked, the later elements are still unseen: they
      share no key with it. */
  lemma ElemsUnseenStep(v: Value, i: nat, seen: set<Visit>, now: set<Visit>)
    requires v.Value? && (v.data.Array? || v.data.Slice?) && i < |v.data.elems| && Unshared(v)
    requires ElemsUnseen(v, i, seen) && now <= seen + Footprint(v.data.elems[i])
    ensures ElemsUnseen(v, i + 1, now)
  {
    forall j | i + 1 <= j < |v.data.elems| ensures Footprint(v.data.elems[j]) !! now {
      assert Footprint(v.data.elems[i]) !! Footprint(v.data.elems[j]);
    }
  }

  /** After field `i` is walked, the later fields are still unseen. */
  lemma FieldsUnseenStep(v: Value, i: nat, seen: set<Visit>, now: set<Visit>)
    requires v.Value? && v.data.Struct? && i < |v.data.fields| && Unshared(v)
    requires FieldsUnseen(v, i, seen) && now <= seen + Footprint(v.data.fields[i].val)
    ensures FieldsUnseen(v, i + 1, now)
  {
    forall j | i + 1 <= j < |v.data.fields| ensures Footprint(v.data.fields[j].val) !! now {
      assert Footprint(v.data.fields[i].val) !! Footprint(v.data.fields[j].val);
    }
  }

  /** After the first key is walked, the elements under the other keys are
      still unseen: apart keys look up elements sharing no key. */
  lemma KeysUnseenStep(v: Value, ks: seq<Value>, seen: set<Visit>, now: set<Visit>)
    requires v.Value? && v.data.Map? && Unshared(v) && ks != []
    requires AllComparable(ks) && ApartSeq(ks) && KeysUnseen(v.data.entries, ks, seen)
    requires now <= seen + Footprint(MapIndex(v.data.entries, ks[0]))
    ensures AllComparable(ks[1..]) && ApartSeq(ks[1..])
    ensures KeysUnseen(v.data.entries, ks[1..], now)
  {
    forall j | 0 <= j < |ks[1..]|
      ensures Footprint(MapIndex(v.data.entries, ks[1..][j])) !! now
    {
      assert ks[1..][j] == ks[j + 1];
      MapIndexApart(v, ks[0], ks[j + 1]);
    }
    forall i, j | 0 <= i < j < |ks[1..]| ensures Apart(ks[1..][i], ks[1..][j]) {
      assert ks[1..][i] == ks[i + 1] && ks[1..][j] == ks[j + 1];
    }
  }

  // ---------------------------------------------------------------------
  // A walk only records the nodes it is given
  // ---------------------------------------------------------------------

  /** From `s` to `t` the visited maps gained no key outside `fa` on the A
      side and `fb` on the B side. */
  ghost predicate Within(s: State, t: State, fa: set<Visit>, fb: set<Visit>) {
    && t.aVisited.Keys <= s.aVisited.Keys + fa
    && t.bVisited.Keys <= s.bVisited.Keys + fb
  }

  /** Two steps within bounds are a step within the larger bounds. */
  lemma WithinTrans(s: State, t: State, u: State, fa: set<Visit>, fb: set<Visit>, ga: set<Visit>, gb: set<Visit>)
    requires Within(s, t, fa, fb) && Within(t, u, ga, gb) && fa <= ga && fb <= gb
    ensures Within(s, u, ga, gb)
  {
  }

  /** A step within bounds is within any larger bounds. */
  lemma WithinWeaken(s: State, r: Outcome<State>, fa: set<Visit>, fb: set<Visit>, ga: set<Visit>, gb: set<Visit>)
    requires r.Done? ==> Within(s, r.value, fa, fb)
    requires fa <= ga && fb <= gb
    ensures r.Done? ==> Within(s, r.value, ga, gb)
  {
  }

  /** The guard records at most the two values' own keys. */
  lemma GuardFrame(env: Env, c: Crumb, a: Value, b: Value, s: State)
    requires a.Value? && b.Value?
    ensures Within(s, Guard(env, c, a, b, s).0, Own(a), Own(b))
  {
  }

  /** A walk adds to the visited maps only the keys of nodes of the two
      values it compares, whether or not the guard fires. */
  lemma {:induction false} WalkFrame(env: Env, c: Crumb, a: Value, b: Value, s: State)
    requires WellFormed(a) && WellFormed(b) && Valid(s.labels)
    ensures var r := Walk(env, c, a, b, s);
            r.Done? ==> Within(s, r.value, Footprint(a), Footprint(b))
    decreases Size(a), 5
  {
    if a.Value? && b.Value? && (env.policy.ignoreTypeNameDifference || a.typ == b.typ) {
      var t := Guard(env, c, a, b, s).0;
      GuardFrame(env, c, a, b, s);
      if Guard(env, c, a, b, s).1 {
        WithinWeaken(s, Done(t), Own(a), Own(b), Footprint(a), Footprint(b));
      } else {
        WalkContinues(env, c, a, b, s);
        CompareFrame(env, c, a, b, t);
        var r := Compare(env, c, a, b, t);
        if r.Done? {
          WithinTrans(s, t, r.value, Own(a), Own(b), Footprint(a), Footprint(b));
        }
      }
    }
  }

  lemma {:induction false} CompareFrame(env: Env, c: Crumb, a: Value, b: Value, s: State)
    requires a.Value? && b.Value? && WellFormed(a) && WellFormed(b) && Valid(s.labels)
    ensures var r := Compare(env, c, a, b, s);
            r.Done? ==> Within(s, r.value, Below(a), Below(b))
    decreases Size(a), 4
  {
    if a.typ !in env.policy.customComparators
       && !(env.policy.numericComparator.Some? && IsNumeric(a) && IsNumeric(b)) {
      assert Compare(env, c, a, b, s) == Structural(env, c, a, b, s);
      StructuralFrame(env, c, a, b, s);
    }
  }

  lemma {:induction false} StructuralFrame(env: Env, c: Crumb, a: Value, b: Value, s: State)
    requires a.Value? && b.Value? && WellFormed(a) && WellFormed(b) && Valid(s.labels)
    ensures var r := Structural(env, c, a, b, s);
            r.Done? ==> Within(s, r.value, Below(a), Below(b))
    decreases Size(a), 3
  {
    match a.data
    case Array(_) => ElemsFrame(env, c, a, b, 0, s);
    case Slice(_) => SliceFrame(env, c, a, b, s);
    case Iface(_) => IfaceFrame(env, c, a, b, s);
    case Map(_) => MapFrame(env, c, a, b, s);
    case Ptr(_, _) => PtrFrame(env, c, a, b, s);
    case Struct(_) => StructFrame(env, c, a, b, s);
    case _ =>
  }

  lemma {:induction false} SliceFrame(env: Env, c: Crumb, a: Value, b: Value, s: State)
    requires a.Value? && a.data.Slice? && b.Value? && WellFormed(a) && WellFormed(b) && Valid(s.labels)
    ensures var r := WalkSlice(env, c, a, b, s);
            r.Done? ==> Within(s, r.value, Below(a), Below(b))
    decreases Size(a), 2
  {
    var r := WalkSlice(env, c, a, b, s);
    if LenOf(b).Done? && LenOf(b).value == |a.data.elems| {
      assert r == WalkElems(env, c, a, b, 0, s);
      ElemsFrame(env, c, a, b, 0, s);
      assert r.Done? ==> Within(s, r.value, Below(a), Below(b));
    } else if LenOf(b).Done? {
      assert r.Done? && r.value.aVisited == s.aVisited && r.value.bVisited == s.bVisited;
      assert Within(s, r.value, Below(a), Below(b));
    } else {
      assert r.Panic?;
    }
  }

  lemma {:induction false} IfaceFrame(env: Env, c: Crumb, a: Value, b: Value, s: State)
    requires a.Value? && a.data.Iface? && b.Value? && WellFormed(a) && WellFormed(b) && Valid(s.labels)
    ensures var r := WalkIface(env, c, a, b, s);
            r.Done? ==> Within(s, r.value, Below(a), Below(b))
    decreases Size(a), 2
  {
    if ElemOf(b).Done? {
      ChildrenSmaller(a);
      var x := a.data.held;
      var y := ElemOf(b).value;
      assert WalkIface(env, c, a, b, s) == Walk(env, c, x, y, s);
      WalkFrame(env, c, x, y, s);
      ElemFootprint(a);
      ElemFootprint(b);
      WithinWeaken(s, Walk(env, c, x, y, s), Footprint(x), Footprint(y), Below(a), Below(b));
    }
  }

  lemma {:induction false} PtrFrame(env: Env, c: Crumb, a: Value, b: Value, s: State)
    requires a.Value? && a.data.Ptr? && b.Value? && WellFormed(a) && WellFormed(b) && Valid(s.labels)
    ensures var r := WalkPtr(env, c, a, b, s);
            r.Done? ==> Within(s, r.value, Below(a), Below(b))
    decreases Size(a), 2
  {
    if IsNilOf(b) == Done(false) && a.data.elem.Some? && ElemOf(b).Done? {
      ChildrenSmaller(a);
      var x := a.data.elem.value;
      var y := ElemOf(b).value;
      assert WalkPtr(env, c, a, b, s) == Walk(env, c, x, y, s);
      WalkFrame(env, c, x, y, s);
      ElemFootprint(a);
      ElemFootprint(b);
      WithinWeaken(s, Walk(env, c, x, y, s), Footprint(x), Footprint(y), Below(a), Below(b));
    }
  }

  lemma {:induction false} StructFrame(env: Env, c: Crumb, a: Value, b: Value, s: State)
    requires a.Value? && a.data.Struct? && b.Value? && WellFormed(a) && WellFormed(b) && Valid(s.labels)
    ensures var r := WalkStruct(env, c, a, b, s);
            r.Done? ==> Within(s, r.value, Below(a), Below(b))
    decreases Size(a), 2
  {
    var s1 := s.(labels := CaptureLabels(s.labels, c.path, a.data.fields));
    FieldsFrame(env, c, a, b, 0, s1);
  }

  /** An element of an array or slice lies below it. */
  lemma ElemBelow(v: Value, i: nat)
    requires v.Value? && (v.data.Array? || v.data.Slice?) && i < |v.data.elems|
    ensures Footprint(v.data.elems[i]) <= Below(v)
  {
  }

  /** A field of a struct lies below it. */
  lemma FieldBelow(v: Value, i: nat)
    requires v.Value? && v.data.Struct? && i < |v.data.fields|
    ensures Footprint(v.data.fields[i].val) <= Below(v)
  {
  }

  lemma {:induction false} ElemsFrame(env: Env, c: Crumb, a: Value, b: Value, i: nat, s: State)
    requires a.Value? && (a.data.Array? || a.data.Slice?) && i <= |a.data.elems| && b.Value?
    requires WellFormed(a) && WellFormed(b) && Valid(s.labels)
    ensures var r := WalkElems(env, c, a, b, i, s);
            r.Done? ==> Within(s, r.value, Below(a), Below(b))
    decreases Size(a), 1, |a.data.elems| - i, 1
  {
    if i < |a.data.elems| && IndexOf(b, i).Done? {
      ElemsStep(env, c, a, b, i, s);
    }
  }

  /** One element, then the rest. */
  lemma {:induction false} ElemsStep(env: Env, c: Crumb, a: Value, b: Value, i: nat, s: State)
    requires a.Value? && (a.data.Array? || a.data.Slice?) && i < |a.data.elems|
    requires b.Value? && IndexOf(b, i).Done?
    requires WellFormed(a) && WellFormed(b) && Valid(s.labels)
    ensures var r := WalkElems(env, c, a, b, i, s);
            r.Done? ==> Within(s, r.value, Below(a), Below(b))
    decreases Size(a), 1, |a.data.elems| - i, 0
  {
    ChildrenSmaller(a);
    var x := a.data.elems[i];
    var y := b.data.elems[i];
    var d := Relabel(c, IndexSegment(env, i));
    var t := Walk(env, d, x, y, s);
    if t.Done? {
      WalkFrame(env, d, x, y, s);
      ElemsFrame(env, c, a, b, i + 1, t.value);
      var u := WalkElems(env, c, a, b, i + 1, t.value);
      assert WalkElems(env, c, a, b, i, s) == u;
      if u.Done? {
        ElemBelow(a, i);
        ElemBelow(b, i);
        WithinTrans(s, t.value, u.value, Footprint(x), Footprint(y), Below(a), Below(b));
      }
    }
  }

  lemma {:induction false} FieldsFrame(env: Env, c: Crumb, a: Value, b: Value, i: nat, s: State)
    requires a.Value? && a.data.Struct? && i <= |a.data.fields| && b.Value?
    requires WellFormed(a) && WellFormed(b) && Valid(s.labels)
    ensures var r := WalkFields(env, c, a, b, i, s);
            r.Done? ==> Within(s, r.value, Below(a), Below(b))
    decreases Size(a), 1, |a.data.fields| - i, 1
  {
    if i < |a.data.fields| && FieldOf(b, i).Done? {
      FieldsStep(env, c, a, b, i, s);
    }
  }

  /** One field, then the rest. */
  lemma {:induction false} FieldsStep(env: Env, c: Crumb, a: Value, b: Value, i: nat, s: State)
    requires a.Value? && a.data.Struct? && i < |a.data.fields|
    requires b.Value? && FieldOf(b, i).Done?
    requires WellFormed(a) && WellFormed(b) && Valid(s.labels)
    ensures var r := WalkFields(env, c, a, b, i, s);
            r.Done? ==> Within(s, r.value, Below(a), Below(b))
    decreases Size(a), 1, |a.data.fields| - i, 0
  {
    ChildrenSmaller(a);
    var f := a.data.fields[i];
    var y := b.data.fields[i].val;
    var d := Relabel(c, f.name);
    var t := Walk(env, d, f.val, y, s);
    if t.Done? {
      WalkFrame(env, d, f.val, y, s);
      FieldsFrame(env, c, a, b, i + 1, t.value);
      var u := WalkFields(env, c, a, b, i + 1, t.value);
      assert WalkFields(env, c, a, b, i, s) == u;
      if u.Done? {
        FieldBelow(a, i);
        FieldBelow(b, i);
        WithinTrans(s, t.value, u.value, Footprint(f.val), Footprint(y), Below(a), Below(b));
      }
    }
  }

  lemma {:induction false} MapFrame(env: Env, c: Crumb, a: Value, b: Value, s: State)
    requires a.Value? && a.data.Map? && b.Value? && WellFormed(a) && WellFormed(b) && Valid(s.labels)
    ensures var r := WalkMap(env, c, a, b, s);
            r.Done? ==> Within(s, r.value, Below(a), Below(b))
    decreases Size(a), 2
  {
    if b.data.Map? {
      MapKeysComparable(a, b);
      var ks := KeyDiff(Keys(a.data.entries), Keys(b.data.entries));
      var t := ReportMissing(env, c, a.data.entries, ks.onlyA, true, s);
      CommonFrame(env, c, a, b, ks.both, t);
      var u := WalkCommon(env, c, a, b.data.entries, ks.both, t);
      if u.Done? {
        assert WalkMap(env, c, a, b, s) ==
               Done(ReportMissing(env, c, b.data.entries, ks.onlyB, false, u.value));
      }
    }
  }

  lemma {:induction false} CommonFrame(env: Env, c: Crumb, a: Value, b: Value, ks: seq<Value>, s: State)
    requires a.Value? && a.data.Map? && b.Value? && b.data.Map? && AllComparable(ks)
    requires WellFormed(a) && WellFormed(b) && Valid(s.labels)
    requires forall i :: 0 <= i < |b.data.entries| ==> WellFormed(b.data.entries[i].val)
    ensures var r := WalkCommon(env, c, a, b.data.entries, ks, s);
            r.Done? ==> Within(s, r.value, Below(a), Below(b))
    decreases Size(a), 1, |ks|
  {
    if ks != [] {
      var bes := b.data.entries;
      CommonChildren(a, bes, ks[0]);
      var x := MapIndex(a.data.entries, ks[0]);
      var y := MapIndex(bes, ks[0]);
      var d := Relabel(c, KeySegment(env, ks[0]));
      var t := Walk(env, d, x, y, s);
      WalkFrame(env, d, x, y, s);
      if t.Done? {
        CommonFrame(env, c, a, b, ks[1..], t.value);
        var u := WalkCommon(env, c, a, bes, ks[1..], t.value);
        assert WalkCommon(env, c, a, bes, ks, s) == u;
        if u.Done? {
          MapIndexFootprint(a, ks[0]);
          MapIndexFootprint(b, ks[0]);
          WithinTrans(s, t.value, u.value, Footprint(x), Footprint(y), Below(a), Below(b));
        }
      }
    }
  }
}

=== FILE: key_partition.dfy ===
/** Map-key equality and the three-way partition of two key lists that the
    walker uses to compare maps (`keyEqual`, `keyDiff` and `MapIndex`). */
module KeyPartition {
  import opened Basics
  import opened Values

  /** Deep equality of two map keys: two invalid values are equal; otherwise
      both must be valid and of the same type, and then the kind of `a`
      decides. Arrays and structs are equal element by element, pointers and
      channels by address, interfaces by what they hold.
      Where `b`, although of the same type, has another shape (which Go's type
      system rules out) the keys are unequal. */
  function KeyEqual(a: Value, b: Value): bool
    requires Comparable(a)
    decreases a
  {
    if a.Invalid? && b.Invalid? then true
    else if a.Invalid? || b.Invalid? || a.typ != b.typ then false
    else
      match a.data
      case Bool(x) => b.data.Bool? && x == b.data.b
      case Int(x) => b.data.Int? && x == b.data.i
      case Uint(x) => b.data.Uint? && x == b.data.u
      case Float(x) => b.data.Float? && x == b.data.f
      case Complex(re, im) => b.data.Complex? && re == b.data.re && im == b.data.im
      case Array(xs) =>
        b.data.Array? && |xs| <= |b.data.elems| &&
        forall i :: 0 <= i < |xs| ==> KeyEqual(xs[i], b.data.elems[i])
      case Opaque(_, p) => (b.data.Opaque? || b.data.Ptr?) && p == b.data.ptr
      case Ptr(p, _) => (b.data.Opaque? || b.data.Ptr?) && p == b.data.ptr
      case Iface(h) => b.data.Iface? && KeyEqual(h, b.data.held)
      case Str(s) => b.data.Str? && s == b.data.s
      case Struct(fs) =>
        b.data.Struct? && |fs| <= |b.data.fields| &&
        forall i :: 0 <= i < |fs| ==> KeyEqual(fs[i].val, b.data.fields[i].val)
      case Slice(_) => false
      case Map(_) => false
  }

  /** Every comparable key equals itself. */
  lemma {:induction false} KeyEqualReflexive(a: Value)
    requires Comparable(a)
    ensures KeyEqual(a, a)
    decreases a
  {
    if a.Value? {
      match a.data
      case Array(xs) =>
        forall i | 0 <= i < |xs| ensures KeyEqual(xs[i], xs[i]) {
          KeyEqualReflexive(xs[i]);
        }
      case Struct(fs) =>
        forall i | 0 <= i < |fs| ensures KeyEqual(fs[i].val, fs[i].val) {
          KeyEqualReflexive(fs[i].val);
        }
      case Iface(h) =>
        KeyEqualReflexive(h);
      case _ =>
    }
  }

  predicate AllComparable(ks: seq<Value>) {
    forall i :: 0 <= i < |ks| ==> Comparable(ks[i])
  }

  /** Position of the entry whose key equals `k`, scanning in order. */
  function Find(es: seq<Entry>, k: Value): (r: Option<nat>)
    requires Comparable(k)
    ensures r.Some? ==> r.value < |es| && KeyEqual(k, es[r.value].key)
    ensures r.None? <==> forall j :: 0 <= j < |es| ==> !KeyEqual(k, es[j].key)
  {
    if es == [] then None
    else if KeyEqual(k, es[0].key) then Some(0)
    else
      match Find(es[1..], k)
      case Some(j) => Some(j + 1)
      case None => None
  }

  /** `MapIndex(k)`: the element stored under `k`, or the invalid value when
      no key equals `k`. */
  function MapIndex(es: seq<Entry>, k: Value): (r: Value)
    requires Comparable(k)
    ensures r.Invalid? || exists i :: 0 <= i < |es| && r == es[i].val
    ensures (exists i :: 0 <= i < |es| && KeyEqual(k, es[i].key)) ==>
              exists i :: 0 <= i < |es| && KeyEqual(k, es[i].key) && r == es[i].val
    ensures (forall i :: 0 <= i < |es| ==> !KeyEqual(k, es[i].key)) ==> r.Invalid?
  {
    match Find(es, k)
    case Some(i) => es[i].val
    case None => Invalid
  }

  /** The first loop's inner scan: does some key of `kb` equal `k`? */
  function HasPartner(k: Value, kb: seq<Value>): (r: bool)
    requires Comparable(k)
    ensures r <==> exists j :: 0 <= j < |kb| && KeyEqual(k, kb[j])
  {
    if kb == [] then false
    else KeyEqual(k, kb[0]) || HasPartner(k, kb[1..])
  }

  /** The second loop's inner scan: does some key of `ka` equal `k`? */
  function HasPartnerIn(ka: seq<Value>, k: Value): (r: bool)
    requires AllComparable(ka)
    ensures r <==> exists i :: 0 <= i < |ka| && KeyEqual(ka[i], k)
  {
    if ka == [] then false
    else KeyEqual(ka[0], k) || HasPartnerIn(ka[1..], k)
  }

  /** The first loop of `keyDiff`: the keys of `ka` without and with a
      partner in `kb`, each list in the order of `ka`. */
  function SplitByPartner(ka: seq<Value>, kb: seq<Value>): (r: (seq<Value>, seq<Value>))
    requires AllComparable(ka)
    ensures |r.0| + |r.1| == |ka|
    ensures IsSubseq(r.0, ka) && IsSubseq(r.1, ka)
    ensures forall i :: 0 <= i < |r.0| ==> Comparable(r.0[i]) && !HasPartner(r.0[i], kb)
    ensures forall i :: 0 <= i < |r.1| ==> Comparable(r.1[i]) && HasPartner(r.1[i], kb)
  {
    if ka == [] then ([], [])
    else
      var rest := SplitByPartner(ka[1..], kb);
      if HasPartner(ka[0], kb) then (rest.0, [ka[0]] + rest.1)
      else ([ka[0]] + rest.0, rest.1)
  }

  /** The second loop of `keyDiff`: the keys of `kb` without a partner in
      `ka`, in the order of `kb`. */
  function Unmatched(ka: seq<Value>, kb: seq<Value>): (bk: seq<Value>)
    requires AllComparable(ka)
    ensures IsSubseq(bk, kb)
    ensures forall i :: 0 <= i < |bk| ==> !HasPartnerIn(ka, bk[i])
    ensures forall j :: 0 <= j < |kb| && !HasPartnerIn(ka, kb[j]) ==> kb[j] in bk
    // a key of `kb` without a partner keeps its multiplicity
    ensures forall x :: multiset(bk)[x] == if HasPartnerIn(ka, x) then 0 else multiset(kb)[x]
  {
    if kb == [] then []
    else
      var rest := Unmatched(ka, kb[1..]);
      assert multiset(kb) == multiset{kb[0]} + multiset(kb[1..]) by {
        assert kb == [kb[0]] + kb[1..];
      }
      if HasPartnerIn(ka, kb[0]) then rest else [kb[0]] + rest
  }

  datatype KeySplit = KeySplit(onlyA: seq<Value>, both: seq<Value>, onlyB: seq<Value>)

  /** `keyDiff`: partitions the keys of two maps by `KeyEqual`. Every key of
      `a` lands in exactly one of `onlyA` (no partner in `b`) and `both`
      (some partner in `b`), in its original order; `onlyB` is exactly the
      keys of `b` with no partner in `a`, in their original order. */
  function KeyDiff(a: seq<Value>, b: seq<Value>): (r: KeySplit)
    requires AllComparable(a)
    ensures |r.onlyA| + |r.both| == |a|
    ensures IsSubseq(r.onlyA, a) && IsSubseq(r.both, a) && IsSubseq(r.onlyB, b)
    ensures forall i :: 0 <= i < |r.onlyA| ==>
              Comparable(r.onlyA[i]) && forall j :: 0 <= j < |b| ==> !KeyEqual(r.onlyA[i], b[j])
    ensures forall i :: 0 <= i < |r.both| ==>
              Comparable(r.both[i]) && exists j :: 0 <= j < |b| && KeyEqual(r.both[i], b[j])
    ensures forall k :: k in r.onlyB <==> k in b && forall i :: 0 <= i < |a| ==> !KeyEqual(a[i], k)
    ensures forall k :: multiset(r.onlyB)[k] == if HasPartnerIn(a, k) then 0 else multiset(b)[k]
    ensures AllComparable(r.onlyA) && AllComparable(r.both)
  {
    var s := SplitByPartner(a, b);
    var bk := Unmatched(a, b);
    SubseqMembers(bk, b);
    KeySplit(s.0, s.1, bk)
  }

  /** A list of keys compared with itself: nothing is missing on either side
      and every key is common. */
  lemma {:induction false} KeyDiffSelf(ks: seq<Value>)
    requires AllComparable(ks)
    ensures KeyDiff(ks, ks) == KeySplit([], ks, [])
  {
    forall i | 0 <= i < |ks| ensures HasPartner(ks[i], ks) && HasPartnerIn(ks, ks[i]) {
      KeyEqualReflexive(ks[i]);
    }
    AllPartnered(ks, ks);
    NoneUnmatched(ks, ks);
  }

  lemma {:induction false} AllPartnered(ka: seq<Value>, kb: seq<Value>)
    requires AllComparable(ka)
    requires forall i :: 0 <= i < |ka| ==> HasPartner(ka[i], kb)
    ensures SplitByPartner(ka, kb) == ([], ka)
  {
    if ka != [] {
      AllPartnered(ka[1..], kb);
      assert [ka[0]] + ka[1..] == ka;
    }
  }

  lemma {:induction false} NoneUnmatched(ka: seq<Value>, kb: seq<Value>)
    requires AllComparable(ka)
    requires forall j :: 0 <= j < |kb| ==> HasPartnerIn(ka, kb[j])
    ensures Unmatched(ka, kb) == []
  {
    if kb != [] {
      NoneUnmatched(ka, kb[1..]);
    }
  }
}

=== FILE: label_store.dfy ===
/** The label store: label values keyed by breadcrumb level, for a closed,
    ordered set of configured label names. */
module LabelStore {
  import opened Breadcrumbs
  import opened StructuredOutput

  /** `levels` maps a breadcrumb level to the label values recorded there;
      `names` are the configured label names in configured order and
      `nameSet` the same names as a set (`labelNamesMap`). */
  datatype Labels = Labels(
    levels: map<string, map<string, string>>,
    names: seq<string>,
    nameSet: set<string>)

  /** The shape every store keeps: `nameSet` holds exactly the configured
      names, and a recorded level holds a value for each of them. */
  ghost predicate Valid(l: Labels) {
    && (forall n :: n in l.nameSet <==> n in l.names)
    && (forall lv :: lv in l.levels ==> l.levels[lv].Keys == l.nameSet)
  }

  /** `NewLabels(names...)`: an empty store for the given names. */
  function NewLabels(names: seq<string>): (l: Labels)
    ensures Valid(l)
    ensures l.names == names
    ensures l.levels == map[]
  {
    Labels(map[], names, set n | n in names)
  }

  /** `SetIfExists(level, name, value)`. */
  function SetIfExists(l: Labels, level: string, name: string, value: string): (r: Labels)
    requires Valid(l)
    ensures Valid(r)
    ensures r.names == l.names && r.nameSet == l.nameSet
    // a name that is not configured leaves the store as it was
    ensures name !in l.names ==> r == l
    // a configured name is recorded at the level
    ensures name in l.names ==> level in r.levels && r.levels[level][name] == value
    // the first write at a level starts every other configured name at ""
    ensures name in l.names && level !in l.levels ==>
              forall n :: n in l.names && n != name ==> r.levels[level][n] == ""
    // later writes at a level keep the other names' values
    ensures name in l.names && level in l.levels ==>
              forall n :: n in l.names && n != name ==> r.levels[level][n] == l.levels[level][n]
    // every other level is untouched
    ensures forall lv :: lv != level ==>
              (lv in r.levels <==> lv in l.levels) && (lv in l.levels ==> r.levels[lv] == l.levels[lv])
  {
    if name in l.nameSet then
      var row := if level in l.levels then l.levels[level] else map n | n in l.names :: "";
      l.(levels := l.levels[level := row[name := value]])
    else l
  }

  /** `Clear(level)`: forgets the labels recorded at one level. */
  function Clear(l: Labels, level: string): (r: Labels)
    requires Valid(l)
    ensures Valid(r)
    ensures r.names == l.names && r.nameSet == l.nameSet
    ensures level !in r.levels
    ensures level !in l.levels ==> r == l
    ensures forall lv :: lv != level ==>
              (lv in r.levels <==> lv in l.levels) && (lv in l.levels ==> r.levels[lv] == l.levels[lv])
  {
    if level in l.levels then l.(levels := l.levels - {level}) else l
  }

  /** The value recorded for `name` at `level`, "" when there is none. */
  function ValueAt(l: Labels, level: string, name: string): string
  {
    if level in l.levels && name in l.levels[level] then l.levels[level][name] else ""
  }

  /** Reference reading of a snapshot: the value at the LAST crumb (in split
      order) that records a non-empty value for `name`; "" if none does. */
  function Nearest(l: Labels, crumbs: seq<string>, name: string): (v: string)
    ensures v != "" ==>
              exists j :: 0 <= j < |crumbs| && ValueAt(l, crumbs[j], name) == v &&
                forall k :: j < k < |crumbs| ==> ValueAt(l, crumbs[k], name) == ""
    ensures v == "" ==> forall k :: 0 <= k < |crumbs| ==> ValueAt(l, crumbs[k], name) == ""
  {
    if crumbs == [] then ""
    else
      var last := ValueAt(l, crumbs[|crumbs| - 1], name);
      if last != "" then last else Nearest(l, crumbs[..|crumbs| - 1], name)
  }

  /** One level's effect on a snapshot under construction: each configured
      name with a non-empty value at `level` takes that value. */
  function Overlay(acc: seq<Label>, l: Labels, level: string): (r: seq<Label>)
    requires |acc| == |l.names|
    ensures |r| == |acc|
  {
    if level in l.levels then
      seq(|acc|, i requires 0 <= i < |acc| =>
        if l.names[i] in l.levels[level] && l.levels[level][l.names[i]] != ""
        then Label(l.names[i], l.levels[level][l.names[i]])
        else acc[i])
    else acc
  }

  /** The breadcrumb walk of `Current`, crumb by crumb from the left. */
  function OverlayAll(acc: seq<Label>, l: Labels, crumbs: seq<string>): (r: seq<Label>)
    requires |acc| == |l.names|
    ensures |r| == |acc|
    decreases |crumbs|
  {
    if crumbs == [] then acc else OverlayAll(Overlay(acc, l, crumbs[0]), l, crumbs[1..])
  }

  /** `Current(level)`: the snapshot of every configured label, in configured
      order, as seen from the breadcrumb `level` split at `sep`. */
  function Current(l: Labels, level: string, sep: string): (r: seq<Label>)
    ensures |r| == |l.names|
    ensures forall i {:trigger r[i]} :: 0 <= i < |r| ==> r[i].name == l.names[i]
    ensures forall i {:trigger r[i]} :: 0 <= i < |r| ==> r[i].value == Nearest(l, Split(level, sep), l.names[i])
  {
    var blank := seq(|l.names|, i requires 0 <= i < |l.names| => Label(l.names[i], ""));
    var crumbs := Split(level, sep);
    OverlayAllMeetsNearest(blank, l, crumbs);
    OverlayAll(blank, l, crumbs)
  }

  /** The left-to-right walk agrees with the reference reading: a later crumb
      with a non-empty value overrides everything before it. */
  lemma {:induction false} OverlayAllMeetsNearest(acc: seq<Label>, l: Labels, crumbs: seq<string>)
    requires |acc| == |l.names|
    ensures forall i :: 0 <= i < |acc| ==>
              OverlayAll(acc, l, crumbs)[i] ==
                (if Nearest(l, crumbs, l.names[i]) != ""
                 then Label(l.names[i], Nearest(l, crumbs, l.names[i])) else acc[i])
    decreases |crumbs|
  {
    if crumbs != [] {
      var next := Overlay(acc, l, crumbs[0]);
      OverlayAllMeetsNearest(next, l, crumbs[1..]);
      forall i | 0 <= i < |acc|
        ensures OverlayAll(acc, l, crumbs)[i] ==
                  (if Nearest(l, crumbs, l.names[i]) != ""
                   then Label(l.names[i], Nearest(l, crumbs, l.names[i])) else acc[i])
      {
        NearestCons(l, crumbs, l.names[i]);
      }
    }
  }

  /** Peeling the first crumb off the reference reading. */
  lemma {:induction false} NearestCons(l: Labels, crumbs: seq<string>, name: string)
    requires crumbs != []
    ensures Nearest(l, crumbs, name) ==
              (if Nearest(l, crumbs[1..], name) != "" then Nearest(l, crumbs[1..], name)
               else ValueAt(l, crumbs[0], name))
    decreases |crumbs|
  {
    if |crumbs| > 1 {
      var init := crumbs[..|crumbs| - 1];
      NearestCons(l, init, name);
      assert init[1..] == crumbs[1..][..|crumbs[1..]| - 1];
      assert init[0] == crumbs[0];
    }
  }

  /** A level whose name contains `sep` is never a crumb, so what is
      recorded there is never seen. */
  lemma UnsplittableLevelUnseen(l: Labels, level: string, sep: string, hidden: string, name: string)
    requires sep != "" && Contains(hidden, sep)
    ensures forall i :: 0 <= i < |Split(level, sep)| ==> Split(level, sep)[i] != hidden
    ensures Nearest(l, Split(level, sep), name) ==
              Nearest(l.(levels := l.levels - {hidden}), Split(level, sep), name)
  {
    SplitPartsFree(level, sep);
    var crumbs := Split(level, sep);
    assert forall i :: 0 <= i < |crumbs| ==> crumbs[i] in crumbs;
    NearestIgnoresOtherLevels(l, crumbs, hidden, name);
  }

  lemma {:induction false} NearestIgnoresOtherLevels(l: Labels, crumbs: seq<string>, hidden: string, name: string)
    requires forall i :: 0 <= i < |crumbs| ==> crumbs[i] != hidden
    ensures Nearest(l, crumbs, name) == Nearest(l.(levels := l.levels - {hidden}), crumbs, name)
    decreases |crumbs|
  {
    if crumbs != [] {
      NearestIgnoresOtherLevels(l, crumbs[..|crumbs| - 1], hidden, name);
    }
  }
}

=== FILE: scenarios.dfy ===
/** Pieces of the repository's structured-diff examples
    (custom_diff_structured_test.go), replayed on the model with any
    formatter: an equal scalar field reports nothing, and a label captured
    from the A side of a nested struct travels with the record of its
    differing field. */
module Scenarios {
  import opened Basics
  import opened Values
  import opened Breadcrumbs
  import Out = StructuredOutput
  import opened LabelStore
  import opened Walker
  import opened CustomDiff

  // Type identities of the example's nested struct and its string field.
  const TChild: TypeId := 4
  const TString: TypeId := 5

  /** `testStruct2{str}`, as `reflect.ValueOf` sees it inside an
      unaddressable `testStruct`. */
  function Child(str: string): Value
  {
    Value(TChild, None, Struct([Field("str", Value(TString, None, Str(str)))]))
  }

  function EnvFor(fmt: Formatter, os: seq<Opt>): Env
  {
    Env(fmt, PolicyOf(NewCustomDiff(os)), ".")
  }

  /** Equal scalars at a field leave the state as it was. */
  lemma EqualField(env: Env, c: Crumb, name: string, v: Value, s: State)
    requires v.Value? && v.addr.None? && (v.data.Int? || v.data.Float?)
    requires env.policy.customComparators == map[] && env.policy.numericComparator.None?
    requires Valid(s.labels) && name != ""
    ensures Walk(env, Relabel(c, name), v, v, s) == Done(s)
  {
    var d := Relabel(c, name);
    assert Guard(env, d, v, v, s) == (s, false);
    assert Leaf(env, d, v, v, s) == Done(s);
    assert Structural(env, d, v, v, s) == Done(s);
    assert Compare(env, d, v, v, s) == Done(s);
  }

  /** The path of the `str` field inside the `child` field. */
  lemma ChildStrPath()
    ensures Relabel(Crumb("child", "child"), "str") == Crumb("child.str", "str")
  {
    assert "child" + "." + "str" == "child.str";
  }

  /** The breadcrumbs of "child.str". */
  lemma ChildStrCrumbs()
    ensures Split("child.str", ".") == ["child", "str"]
  {
    ChildStrPath();
    SplitAtSeparator("child", "str", '.');
    SplitWithoutSeparator("child", '.');
    SplitWithoutSeparator("str", '.');
  }

  /** A store configured with the one label name "str", nothing recorded. */
  function StrOnly(): (l: Labels)
    ensures Valid(l)
  {
    Labels(map[], ["str"], {"str"})
  }

  lemma NewStrOnly()
    ensures NewLabels(["str"]) == StrOnly()
  {
    assert forall n :: n in ["str"] <==> n == "str";
  }

  /** The labels a `testStruct2{x}` on the A side records at level "child". */
  function ChildLevels(x: string): Labels
  {
    Labels(map["child" := map["str" := x]], ["str"], {"str"})
  }

  lemma CaptureChild(l: Labels, x: string)
    requires l == StrOnly()
    ensures CaptureLabels(l, "child", Child(x).data.fields) == ChildLevels(x)
  {
    var fs := Child(x).data.fields;
    var l0 := SetIfExists(l, "child", "str", x);
    assert fs[1..] == [];
    assert CaptureLabels(l0, "child", []) == l0;
    assert "str" in l.nameSet;
    assert l.nameSet == {"str"};
    var row: map<string, string> := map n | n in ["str"] :: "";
    assert row.Keys == {"str"} by {
      assert forall n :: n in ["str"] <==> n == "str";
    }
    assert row["str" := x] == map["str" := x];
  }

  /** At "child.str" a non-empty label recorded at level "child" is visible. */
  lemma CurrentAtChildStr(x: string)
    requires x != ""
    ensures Current(ChildLevels(x), "child.str", ".") == [Out.Label("str", x)]
  {
    var l := ChildLevels(x);
    ChildStrCrumbs();
    var crumbs := ["child", "str"];
    assert ValueAt(l, "str", "str") == "";
    assert ValueAt(l, "child", "str") == x;
    assert crumbs[..1] == ["child"];
    assert Nearest(l, ["child"], "str") == x;
    assert Nearest(l, crumbs, "str") == x;
  }

  /** The differing string field of the nested struct. */
  lemma StrField(env: Env, x: string, y: string, s: State)
    requires env.policy.customComparators == map[] && env.policy.numericComparator.None?
    requires Valid(s.labels) && x != y
    ensures var d := Crumb("child.str", "str");
            Walk(env, d, Value(TString, None, Str(x)), Value(TString, None, Str(y)), s) ==
              Done(Mismatch(env, d, s, env.fmt.quote(x), env.fmt.quote(y)))
  {
    var a := Value(TString, None, Str(x));
    var b := Value(TString, None, Str(y));
    var d := Crumb("child.str", "str");
    assert Guard(env, d, a, b, s) == (s, false);
    var t := Mismatch(env, d, s, env.fmt.quote(x), env.fmt.quote(y));
    assert Leaf(env, d, a, b, s) == Done(t);
    assert Structural(env, d, a, b, s) == Done(t);
    assert Compare(env, d, a, b, s) == Done(t);
  }

  /** The nested struct is a value Go can build. */
  lemma ChildWellFormed(x: string)
    ensures WellFormed(Child(x))
  {
    var f := Value(TString, None, Str(x));
    assert WellFormed(f);
    assert Child(x).data.fields == [Field("str", f)];
  }

  /** The field loop of the nested struct, once its label is recorded. */
  lemma ChildFields(env: Env, x: string, y: string, s: State)
    requires env.policy.customComparators == map[] && env.policy.numericComparator.None?
    requires s.labels == ChildLevels(x) && x != y
    ensures var d := Crumb("child.str", "str");
            WalkFields(env, Crumb("child", "child"), Child(x), Child(y), 0, s) ==
              Done(Mismatch(env, d, s, env.fmt.quote(x), env.fmt.quote(y)))
  {
    var c := Crumb("child", "child");
    var d := Relabel(c, "str");
    ChildWellFormed(x);
    ChildWellFormed(y);
    ChildStrPath();
    StrField(env, x, y, s);
    var fx := Value(TString, None, Str(x));
    var fy := Value(TString, None, Str(y));
    assert Child(x).data.fields[0] == Field("str", fx);
    assert FieldOf(Child(y), 0) == Done(fy);
    var t := Mismatch(env, d, s, env.fmt.quote(x), env.fmt.quote(y));
    assert Walk(env, d, fx, fy, s) == Done(t);
    assert WalkFields(env, c, Child(x), Child(y), 1, t) == Done(t);
  }

  /** The state after the nested struct: its one record, its level cleared. */
  function ChildAfter(env: Env, x: string, y: string, s: State): State
  {
    var s1 := s.(labels := ChildLevels(x));
    var t := Mismatch(env, Crumb("child.str", "str"), s1, env.fmt.quote(x), env.fmt.quote(y));
    t.(labels := Clear(t.labels, "child"))
  }

  /** What that state holds: the visited maps as they were, no level left,
      and one record at "child.str" with the labels visible there. */
  lemma ChildAfterRecords(env: Env, x: string, y: string, s: State)
    requires s.labels == StrOnly()
    ensures var t := ChildAfter(env, x, y, s);
            && t.labels.levels == map[]
            && t.aVisited == s.aVisited && t.bVisited == s.bVisited
            && NewRecords(s, t) ==
                 [Out.StructuredDiff("child.str", Current(ChildLevels(x), "child.str", env.sep),
                                     env.fmt.quote(x), env.fmt.quote(y))]
  {
    assert ChildLevels(x).levels - {"child"} == map[];
  }

  lemma ChildStruct(env: Env, x: string, y: string, s: State)
    requires env.policy.customComparators == map[] && env.policy.numericComparator.None?
    requires s.labels == StrOnly() && x != y
    ensures WalkStruct(env, Crumb("child", "child"), Child(x), Child(y), s) ==
              Done(ChildAfter(env, x, y, s))
  {
    CaptureChild(s.labels, x);
    ChildFields(env, x, y, s.(labels := ChildLevels(x)));
  }

  /** The nested struct of the "label fields" example goes straight to the
      struct rule: no address to guard, no comparator, not a number. */
  lemma ChildIsPlainStruct(env: Env, x: string, y: string, s: State)
    requires env.policy.customComparators == map[] && Valid(s.labels)
    ensures var c := Crumb("child", "child");
            Walk(env, c, Child(x), Child(y), s) == WalkStruct(env, c, Child(x), Child(y), s)
  {
    var c := Crumb("child", "child");
    assert Guard(env, c, Child(x), Child(y), s) == (s, false);
    assert !IsNumeric(Child(x));
    assert Structural(env, c, Child(x), Child(y), s) == WalkStruct(env, c, Child(x), Child(y), s);
  }

  /** With "." as the separator that record is labelled with the A side's
      `str`, as the repository's "label fields" example expects. */
  lemma LabelFromASide(env: Env, x: string, y: string, s: State, r: Outcome<State>)
    requires env.policy.customComparators == map[] && env.policy.numericComparator.None?
    requires s.labels == StrOnly() && x != y && x != ""
    requires r == Walk(env, Crumb("child", "child"), Child(x), Child(y), s)
    requires env.sep == "."
    ensures r.Done? && r.value.labels.levels == map[]
    ensures r.Done? && NewRecords(s, r.value) ==
              [Out.StructuredDiff("child.str", [Out.Label("str", x)], env.fmt.quote(x), env.fmt.quote(y))]
  {
    ChildIsPlainStruct(env, x, y, s);
    ChildStruct(env, x, y, s);
    ChildAfterRecords(env, x, y, s);
    CurrentAtChildStr(x);
  }

  /** The "label fields" example under `WithLabelFields("str")` from a
      fresh walk: the `child` field yields exactly the expected record. */
  lemma LabelFieldsExample(fmt: Formatter)
    ensures var r := Walk(EnvFor(fmt, [LabelFields(["str"])]), Crumb("child", "child"),
                          Child("strValue A"), Child("strValue B"), Fresh(["str"]));
            r.Done? && Out.Results(r.value.out) ==
              [Out.StructuredDiff("child.str", [Out.Label("str", "strValue A")],
                                  fmt.quote("strValue A"), fmt.quote("strValue B"))]
  {
    var env := EnvFor(fmt, [LabelFields(["str"])]);
    assert [LabelFields(["str"])][1..] == [];
    assert env.policy == Policy(false, map[], None);
    NewStrOnly();
    var s := Fresh(["str"]);
    LabelFromASide(env, "strValue A", "strValue B", s,
                   Walk(env, Crumb("child", "child"), Child("strValue A"), Child("strValue B"), s));
  }
}

=== FILE: structured_output.dfy ===
/** The structured sink: an append-only list of path-addressed diff records. */
module StructuredOutput {

  /** A contextual annotation: the value of a configured label field. */
  datatype Label = Label(name: string, value: string)

  /** One divergence: where (`fieldName` is the breadcrumb path), under which
      labels, and the renderings of the two sides. */
  datatype StructuredDiff = StructuredDiff(
    fieldName: string,
    labels: seq<Label>,
    valueA: string,
    valueB: string)

  datatype Differ = Differ(diffs: seq<StructuredDiff>)

  /** A fresh sink holds no records. */
  function NewStructuredDiffer(): (d: Differ)
    ensures |Results(d)| == 0
  {
    Differ([])
  }

  /** Appends one record after all earlier ones, which stay as they were. */
  function Print(d: Differ, x: StructuredDiff): (d': Differ)
    ensures |Results(d')| == |Results(d)| + 1
    ensures Results(d') [..|Results(d)|] == Results(d)
    ensures Results(d')[|Results(d)|] == x
  {
    Differ(d.diffs + [x])
  }

  /** Every record printed so far. */
  function Results(d: Differ): seq<StructuredDiff>
  {
    d.diffs
  }

  /** Prints each record of `xs` in turn. */
  function PrintAll(d: Differ, xs: seq<StructuredDiff>): Differ
    decreases |xs|
  {
    if xs == [] then d else PrintAll(Print(d, xs[0]), xs[1..])
  }

  /** The sink returns exactly what was printed, in print order, with no
      deduplication, reordering or truncation. */
  lemma {:induction false} ResultsOfPrints(d: Differ, xs: seq<StructuredDiff>)
    ensures Results(PrintAll(d, xs)) == Results(d) + xs
    decreases |xs|
  {
    if xs != [] {
      ResultsOfPrints(Print(d, xs[0]), xs[1..]);
      assert Results(Print(d, xs[0])) == Results(d) + [xs[0]];
      assert [xs[0]] + xs[1..] == xs;
    }
  }

  /** In particular a fresh sink returns the printed records and nothing else. */
  lemma FreshSinkResults(xs: seq<StructuredDiff>)
    ensures Results(PrintAll(NewStructuredDiffer(), xs)) == xs
  {
    ResultsOfPrints(NewStructuredDiffer(), xs);
  }
}

=== FILE: values.dfy ===
/** The values the diff engine compares: an abstraction of Go's
    `reflect.Value`. A value is either invalid (the zero `reflect.Value`, what
    `reflect.ValueOf(nil)` and a nil interface's `Elem` give) or carries a type
    identity, an optional address and a kind-specific payload.

    Go values can form cycles through pointers; here values are finite trees
    and a cycle shows up as the same address appearing again further down.
    The address is the token the reflection layer reports through `CanAddr`
    and `UnsafeAddr`: `None` for values that are not addressable (top-level
    values, map elements, interface contents). */
module Values {
  import opened Basics

  /** Identity of a Go `reflect.Type`. */
  type TypeId = nat
  type Addr = nat

  datatype OpaqueKind = Chan | Func | UnsafePointer

  datatype Value =
    | Invalid
    | Value(typ: TypeId, addr: Option<Addr>, data: Data)

  /** One constructor per `reflect.Kind` family the walker distinguishes.
      Floats and complex numbers are exact reals: IEEE rounding, NaN and
      infinities are not modelled. `Ptr.elem` is `None` exactly for a nil
      pointer; `ptr` is what `Pointer()` reports. */
  datatype Data =
    | Bool(b: bool)
    | Int(i: int)
    | Uint(u: nat)
    | Float(f: real)
    | Complex(re: real, im: real)
    | Str(s: string)
    | Array(elems: seq<Value>)
    | Slice(elems: seq<Value>)
    | Map(entries: seq<Entry>)
    | Ptr(ptr: Addr, elem: Option<Value>)
    | Iface(held: Value)
    | Opaque(kind: OpaqueKind, ptr: Addr)
    | Struct(fields: seq<Field>)

  /** A map entry, in the order `MapKeys` happens to report it. */
  datatype Entry = Entry(key: Value, val: Value)

  /** A struct field with its declared name, in declaration order. */
  datatype Field = Field(name: string, val: Value)

  /** A caller-registered equality for one type (`Equals` in the source). */
  type Equals = (Value, Value) -> bool

  /** A numeric equality on values converted to float64 (`Float64Equals`). */
  type Float64Equals = (real, real) -> bool

  /** The text renderings the walker asks `fmt` and the value formatter for.
      The formatter itself is not part of this model: each verb is an opaque
      function supplied by the environment. */
  datatype Formatter = Formatter(
    pretty: Value -> string,            // "%# v" through the value formatter, strings quoted
    plain: Value -> string,             // "%v" of a value
    goSyntax: Value -> string,          // "%#v" of a value
    quoted: Value -> string,            // "%q" of a value
    typeName: TypeId -> string,         // "%v" of a type
    boolText: bool -> string,           // "%v" of a bool
    decimal: int -> string,             // "%d" of an integer
    floatText: real -> string,          // "%v" of a float64
    complexText: (real, real) -> string,// "%v" of a complex128
    quote: string -> string,            // "%q" of a string
    hex: nat -> string                  // "%#x" of a pointer
  )

  // ---------------------------------------------------------------------
  // Size: the termination measure of the walker.
  // ---------------------------------------------------------------------

  function Size(v: Value): nat
  {
    match v
    case Invalid => 0
    case Value(_, _, d) => 1 + DataSize(d)
  }

  function DataSize(d: Data): nat
  {
    match d
    case Array(es) => ValuesSize(es)
    case Slice(es) => ValuesSize(es)
    case Map(es) => EntriesSize(es)
    case Ptr(_, e) => if e.Some? then Size(e.value) else 0
    case Iface(h) => Size(h)
    case Struct(fs) => FieldsSize(fs)
    case _ => 0
  }

  function ValuesSize(es: seq<Value>): nat
  {
    if es == [] then 0 else Size(es[0]) + ValuesSize(es[1..])
  }

  function EntriesSize(es: seq<Entry>): nat
  {
    if es == [] then 0 else EntrySize(es[0]) + EntriesSize(es[1..])
  }

  function EntrySize(e: Entry): nat
  {
    Size(e.key) + Size(e.val)
  }

  function FieldsSize(fs: seq<Field>): nat
  {
    if fs == [] then 0 else Size(fs[0].val) + FieldsSize(fs[1..])
  }

  lemma {:induction false} ValuesSizeBound(es: seq<Value>, i: nat)
    requires i < |es|
    ensures Size(es[i]) <= ValuesSize(es)
  {
    if i > 0 {
      ValuesSizeBound(es[1..], i - 1);
    }
  }

  lemma {:induction false} EntriesSizeBound(es: seq<Entry>, i: nat)
    requires i < |es|
    ensures Size(es[i].val) <= EntriesSize(es)
    ensures Size(es[i].key) <= EntriesSize(es)
  {
    if i > 0 {
      EntriesSizeBound(es[1..], i - 1);
    }
  }

  lemma {:induction false} FieldsSizeBound(fs: seq<Field>, i: nat)
    requires i < |fs|
    ensures Size(fs[i].val) <= FieldsSize(fs)
  {
    if i > 0 {
      FieldsSizeBound(fs[1..], i - 1);
    }
  }

  /** Every child the walker descends into is strictly smaller. */
  lemma ChildrenSmaller(v: Value)
    requires v.Value?
    ensures v.data.Array? || v.data.Slice? ==>
              forall i :: 0 <= i < |v.data.elems| ==> Size(v.data.elems[i]) < Size(v)
    ensures v.data.Map? ==>
              forall i :: 0 <= i < |v.data.entries| ==> Size(v.data.entries[i].val) < Size(v)
    ensures v.data.Struct? ==>
              forall i :: 0 <= i < |v.data.fields| ==> Size(v.data.fields[i].val) < Size(v)
    ensures v.data.Ptr? && v.data.elem.Some? ==> Size(v.data.elem.value) < Size(v)
    ensures v.data.Iface? ==> Size(v.data.held) < Size(v)
  {
    match v.data
    case Array(es) =>
      forall i | 0 <= i < |es| ensures Size(es[i]) < Size(v) { ValuesSizeBound(es, i); }
    case Slice(es) =>
      forall i | 0 <= i < |es| ensures Size(es[i]) < Size(v) { ValuesSizeBound(es, i); }
    case Map(es) =>
      forall i | 0 <= i < |es| ensures Size(es[i].val) < Size(v) { EntriesSizeBound(es, i); }
    case Struct(fs) =>
      forall i | 0 <= i < |fs| ensures Size(fs[i].val) < Size(v) { FieldsSizeBound(fs, i); }
    case _ =>
  }

  // ---------------------------------------------------------------------
  // Well-formedness guaranteed by Go's type system.
  // ---------------------------------------------------------------------

  /** A value that may be a map key: Go rejects slices, maps and functions as
      keys (statically, or by a panic on insertion for interface keys). */
  predicate Comparable(v: Value)
  {
    match v
    case Invalid => true
    case Value(_, _, d) =>
      match d
      case Array(es) => forall i :: 0 <= i < |es| ==> Comparable(es[i])
      case Slice(_) => false
      case Map(_) => false
      case Iface(h) => Comparable(h)
      case Opaque(k, _) => k != Func
      case Struct(fs) => forall i :: 0 <= i < |fs| ==> Comparable(fs[i].val)
      case _ => true
  }

  /** Every map key anywhere inside `v` is comparable, every struct field
      has a name, and every pointer agrees with what it points at, as in any
      value Go can build. */
  predicate WellFormed(v: Value)
  {
    match v
    case Invalid => true
    case Value(_, _, d) =>
      match d
      case Array(es) => forall i :: 0 <= i < |es| ==> WellFormed(es[i])
      case Slice(es) => forall i :: 0 <= i < |es| ==> WellFormed(es[i])
      case Map(es) =>
        forall i :: 0 <= i < |es| ==>
          Comparable(es[i].key) && WellFormed(es[i].key) && WellFormed(es[i].val)
      case Ptr(p, e) =>
        // a nil pointer is address 0; a non-nil one points at an
        // addressable value whose address is the pointer
        && (p == 0 <==> e.None?)
        && (e.Some? ==> e.value.Value? && e.value.addr == Some(p) && WellFormed(e.value))
      case Iface(h) => WellFormed(h)
      case Struct(fs) => forall i :: 0 <= i < |fs| ==> fs[i].name != "" && WellFormed(fs[i].val)
      case _ => true
  }

  /** The keys of a map, in `MapKeys` order. */
  function Keys(es: seq<Entry>): (ks: seq<Value>)
    ensures |ks| == |es|
    ensures forall i :: 0 <= i < |es| ==> ks[i] == es[i].key
  {
    seq(|es|, i requires 0 <= i < |es| => es[i].key)
  }

  // ---------------------------------------------------------------------
  // reflect.Value accessors applied to the B side. Each aborts, as reflect
  // panics, when the value is not of a kind the accessor accepts.
  // ---------------------------------------------------------------------

  function BoolOf(v: Value): (r: Outcome<bool>)
    ensures r.Done? <==> v.Value? && v.data.Bool?
    ensures r.Done? ==> r.value == v.data.b
  {
    if v.Value? && v.data.Bool? then Done(v.data.b)
    else Panic("reflect: call of reflect.Value.Bool on a non-bool Value")
  }

  function IntOf(v: Value): (r: Outcome<int>)
    ensures r.Done? <==> v.Value? && v.data.Int?
    ensures r.Done? ==> r.value == v.data.i
  {
    if v.Value? && v.data.Int? then Done(v.data.i)
    else Panic("reflect: call of reflect.Value.Int on a non-int Value")
  }

  function UintOf(v: Value): (r: Outcome<nat>)
    ensures r.Done? <==> v.Value? && v.data.Uint?
    ensures r.Done? ==> r.value == v.data.u
  {
    if v.Value? && v.data.Uint? then Done(v.data.u)
    else Panic("reflect: call of reflect.Value.Uint on a non-uint Value")
  }

  function FloatOf(v: Value): (r: Outcome<real>)
    ensures r.Done? <==> v.Value? && v.data.Float?
    ensures r.Done? ==> r.value == v.data.f
  {
    if v.Value? && v.data.Float? then Done(v.data.f)
    else Panic("reflect: call of reflect.Value.Float on a non-float Value")
  }

  function ComplexOf(v: Value): (r: Outcome<(real, real)>)
    ensures r.Done? <==> v.Value? && v.data.Complex?
    ensures r.Done? ==> r.value == (v.data.re, v.data.im)
  {
    if v.Value? && v.data.Complex? then Done((v.data.re, v.data.im))
    else Panic("reflect: call of reflect.Value.Complex on a non-complex Value")
  }

  /** `Len`, for the array and slice kinds. */
  function LenOf(v: Value): (r: Outcome<nat>)
    ensures r.Done? <==> v.Value? && (v.data.Array? || v.data.Slice?)
    ensures r.Done? ==> r.value == |v.data.elems|
  {
    if v.Value? && (v.data.Array? || v.data.Slice?) then Outcome<nat>.Done(|v.data.elems|)
    else Outcome<nat>.Panic("reflect: call of reflect.Value.Len on a Value without a length")
  }

  /** `Index(i)`, for the array and slice kinds; out of range panics. */
  function IndexOf(v: Value, i: nat): (r: Outcome<Value>)
    ensures r.Done? <==> v.Value? && (v.data.Array? || v.data.Slice?) && i < |v.data.elems|
    ensures r.Done? ==> r.value == v.data.elems[i]
  {
    if v.Value? && (v.data.Array? || v.data.Slice?) then
      if i < |v.data.elems| then Done(v.data.elems[i])
      else Panic("reflect: index out of range")
    else Panic("reflect: call of reflect.Value.Index on a Value that cannot be indexed")
  }

  /** `Pointer`, for the pointer, channel, func and unsafe-pointer kinds. */
  function PointerOf(v: Value): (r: Outcome<Addr>)
    ensures r.Done? <==> v.Value? && (v.data.Ptr? || v.data.Opaque?)
    ensures r.Done? ==> r.value == v.data.ptr
  {
    if v.Value? && (v.data.Ptr? || v.data.Opaque?) then Done(v.data.ptr)
    else Panic("reflect: call of reflect.Value.Pointer on a non-pointer Value")
  }

  /** `IsNil`, for the pointer, interface, channel, func and unsafe-pointer kinds. */
  function IsNilOf(v: Value): (r: Outcome<bool>)
    ensures r.Done? <==> v.Value? && (v.data.Ptr? || v.data.Iface? || v.data.Opaque?)
    ensures r.Done? && v.data.Ptr? ==> (r.value <==> v.data.elem.None?)
    ensures r.Done? && v.data.Iface? ==> (r.value <==> v.data.held.Invalid?)
  {
    if v.Invalid? then Panic("reflect: call of reflect.Value.IsNil on zero Value")
    else if v.data.Ptr? then Done(v.data.elem.None?)
    else if v.data.Iface? then Done(v.data.held.Invalid?)
    else if v.data.Opaque? then Done(v.data.ptr == 0)
    else Panic("reflect: call of reflect.Value.IsNil on a Value that cannot be nil")
  }

  /** `Elem`: the value an interface holds or a pointer points to; the
      invalid value for a nil pointer or a nil interface. */
  function ElemOf(v: Value): (r: Outcome<Value>)
    ensures r.Done? <==> v.Value? && (v.data.Ptr? || v.data.Iface?)
    ensures r.Done? && v.data.Iface? ==> r.value == v.data.held
    ensures r.Done? && v.data.Ptr? ==>
              r.value == (if v.data.elem.Some? then v.data.elem.value else Invalid)
  {
    if v.Value? && v.data.Iface? then Done(v.data.held)
    else if v.Value? && v.data.Ptr? then
      Done(if v.data.elem.Some? then v.data.elem.value else Invalid)
    else Panic("reflect: call of reflect.Value.Elem on a Value that has no element")
  }

  /** `MapKeys` together with the entries behind them, for the map kind. */
  function EntriesOf(v: Value): (r: Outcome<seq<Entry>>)
    ensures r.Done? <==> v.Value? && v.data.Map?
    ensures r.Done? ==> r.value == v.data.entries
  {
    if v.Value? && v.data.Map? then Done(v.data.entries)
    else Panic("reflect: call of reflect.Value.MapKeys on a non-map Value")
  }

  /** `Field(i)`, for the struct kind; out of range panics. */
  function FieldOf(v: Value, i: nat): (r: Outcome<Value>)
    ensures r.Done? <==> v.Value? && v.data.Struct? && i < |v.data.fields|
    ensures r.Done? ==> r.value == v.data.fields[i].val
  {
    if v.Value? && v.data.Struct? then
      if i < |v.data.fields| then Done(v.data.fields[i].val)
      else Panic("reflect: Field index out of range")
    else Panic("reflect: call of reflect.Value.Field on a non-struct Value")
  }

  /** `String`: never panics; a value of another kind renders as
      "<T Value>" with T its type. */
  function StringOf(fmt: Formatter, v: Value): (s: string)
    ensures v.Value? && v.data.Str? ==> s == v.data.s
  {
    if v.Invalid? then "<invalid Value>"
    else if v.data.Str? then v.data.s
    else "<" + fmt.typeName(v.typ) + " Value>"
  }

  /** The value converts to float64: the integer, unsigned and float kinds. */
  predicate IsNumeric(v: Value) {
    v.Value? && (v.data.Int? || v.data.Uint? || v.data.Float?)
  }

  /** The float64 conversion, exact over the reals. */
  function AsFloat(v: Value): real
    requires IsNumeric(v)
  {
    match v.data
    case Int(i) => i as real
    case Uint(u) => u as real
    case Float(f) => f
  }
}

=== FILE: walker.dfy ===
/** The recursive structural diff walker (`diffPrinter.diff`): walks two values
    in lockstep, applies a fixed ladder of rules at every node and reports each
    divergence as one text line and one structured record. */
module Walker {
  import opened Basics
  import opened Values
  import opened KeyPartition
  import opened StructuredOutput
  import opened LabelStore

  /** The comparison switches a diff printer carries. `customComparators` is
      keyed by the type of the A side; `numericComparator` is `None` when no
      numeric tolerance is configured. */
  datatype Policy = Policy(
    ignoreTypeNameDifference: bool,
    customComparators: map<TypeId, Equals>,
    numericComparator: Option<Float64Equals>)

  /** What stays fixed during one walk: the renderings, the policy and the
      separator the label store splits breadcrumbs at. */
  datatype Env = Env(fmt: Formatter, policy: Policy, sep: string)

  /** A printer's position: the breadcrumb path `l` and the last segment. */
  datatype Crumb = Crumb(path: string, leafName: string)

  const Root := Crumb("", "")

  /** `visit`: an address together with the type found there. */
  datatype Visit = Visit(addr: Addr, typ: TypeId)

  /** What every printer copy of one walk shares: both visited maps, the label
      store, the text lines and the structured sink. */
  datatype State = State(
    aVisited: map<Visit, Visit>,
    bVisited: map<Visit, Visit>,
    labels: Labels,
    lines: seq<string>,
    out: Differ)

  // ---------------------------------------------------------------------
  // Breadcrumbs and record emission
  // ---------------------------------------------------------------------

  /** `relabel`: extends the path by one segment, with a "." in between only
      when the path is non-empty and the segment is not an index "[...]".
      The segment is only inspected when the path is non-empty. */
  function Relabel(c: Crumb, name: string): (d: Crumb)
    requires c.path == "" || name != ""
    ensures d.leafName == name
    ensures |d.path| == |c.path| + |name| + (if c.path != "" && name[0] != '[' then 1 else 0)
    ensures c.path <= d.path && d.path[|d.path| - |name|..] == name
    ensures c.path != "" && name[0] != '[' ==> d.path[|c.path|] == '.'
  {
    var dot := if c.path != "" && name[0] != '[' then "." else "";
    Crumb(c.path + dot + name, name)
  }

  /** The segment of array or slice element `i`. */
  function IndexSegment(env: Env, i: nat): string
  {
    "[" + env.fmt.decimal(i) + "]"
  }

  /** The segment of the map entry under key `k`. */
  function KeySegment(env: Env, k: Value): string
  {
    "[" + env.fmt.goSyntax(k) + "]"
  }

  /** A text line: the path and ": " in front of the description, unless the
      path is empty. */
  function Line(path: string, text: string): string
  {
    if path != "" then path + ": " + text else text
  }

  /** The record reported at `c` with the labels of store `l` visible there. */
  function Here(env: Env, c: Crumb, l: Labels, va: string, vb: string): StructuredDiff
  {
    StructuredDiff(c.path, Current(l, c.path, env.sep), va, vb)
  }

  /** `printf` followed by `structuredPrint`: one text line and one record
      carrying the labels visible at the current path. */
  function Emit(env: Env, c: Crumb, s: State, text: string, va: string, vb: string): (t: State)
    ensures t.lines == s.lines + [Line(c.path, text)]
    ensures Results(t.out) ==
              Results(s.out) + [StructuredDiff(c.path, Current(s.labels, c.path, env.sep), va, vb)]
    ensures t.aVisited == s.aVisited && t.bVisited == s.bVisited && t.labels == s.labels
  {
    Append(s, Line(c.path, text), StructuredDiff(c.path, Current(s.labels, c.path, env.sep), va, vb))
  }

  /** One text line and one record appended, nothing else changed. */
  function Append(s: State, line: string, rec: StructuredDiff): (t: State)
    ensures t.lines == s.lines + [line]
    ensures Results(t.out) == Results(s.out) + [rec]
    ensures t.aVisited == s.aVisited && t.bVisited == s.bVisited && t.labels == s.labels
  {
    s.(lines := s.lines + [line], out := Print(s.out, rec))
  }

  /** The common "%v != %v" report: the text line is the two renderings
      joined by " != ", and the record carries the same two renderings. */
  function Mismatch(env: Env, c: Crumb, s: State, va: string, vb: string): State
  {
    Emit(env, c, s, va + " != " + vb, va, vb)
  }

  /** A "%v != %v" report made only when the two sides differ. */
  function ReportIf(env: Env, c: Crumb, s: State, differ: bool, va: string, vb: string): (t: State)
    ensures Grows(s, t) && Step(s, t, c.path)
    ensures t.labels == s.labels && t.aVisited == s.aVisited && t.bVisited == s.bVisited
    ensures !differ ==> t == s
    ensures differ ==> NewRecords(s, t) == [StructuredDiff(c.path, Current(s.labels, c.path, env.sep), va, vb)]
    ensures |NewRecords(s, t)| == if differ then 1 else 0
  {
    if differ then Mismatch(env, c, s, va, vb) else s
  }

  // ---------------------------------------------------------------------
  // How a walk may change the shared state
  // ---------------------------------------------------------------------

  function NewRecords(s: State, t: State): seq<StructuredDiff>
    requires |Results(s.out)| <= |Results(t.out)|
  {
    Results(t.out)[|Results(s.out)|..]
  }

  /** `t` is a later state of the same walk as `s`: lines and records are only
      appended, one line per record; the label names stay; a label level is
      at most removed, never changed or added; visited keys are only added. */
  ghost predicate Grows(s: State, t: State) {
    && s.lines <= t.lines
    && Results(s.out) <= Results(t.out)
    && |t.lines| - |s.lines| == |Results(t.out)| - |Results(s.out)|
    && t.labels.names == s.labels.names && t.labels.nameSet == s.labels.nameSet
    && (forall lv :: lv in t.labels.levels ==>
          lv in s.labels.levels && t.labels.levels[lv] == s.labels.levels[lv])
    && s.aVisited.Keys <= t.aVisited.Keys && s.bVisited.Keys <= t.bVisited.Keys
  }

  /** Every record added between `s` and `t` lies at or under path `p`. */
  ghost predicate RecordsAt(s: State, t: State, p: string)
    requires Grows(s, t)
  {
    forall k :: |Results(s.out)| <= k < |Results(t.out)| ==> p <= Results(t.out)[k].fieldName
  }

  /** Every record added between `s` and `t` lies strictly under path `p`. */
  ghost predicate RecordsBelow(s: State, t: State, p: string)
    requires Grows(s, t)
  {
    forall k :: |Results(s.out)| <= k < |Results(t.out)| ==>
      IsProperPrefix(p, Results(t.out)[k].fieldName)
  }

  /** No label level outside the subtree of path `p` was removed. */
  ghost predicate LevelsKept(s: State, t: State, p: string) {
    forall lv :: lv in s.labels.levels && !(p <= lv) ==> lv in t.labels.levels
  }

  /** The effect a walk at path `p` may have on the shared state. */
  ghost predicate Step(s: State, t: State, p: string) {
    Grows(s, t) && RecordsAt(s, t, p) && LevelsKept(s, t, p)
  }

  /** No label level is recorded at path `p` or under it, as at the start
      of a walk, when the store has no level at all. */
  ghost predicate LevelsOutside(l: Labels, p: string) {
    forall lv :: lv in l.levels ==> !(p <= lv)
  }

  /** A step at `p` from a store with no level at or under `p` leaves the
      store as it found it: every struct on the way clears what it captured. */
  lemma LabelsRestored(s: State, t: State, p: string)
    requires Step(s, t, p)
    ensures LevelsOutside(s.labels, p) ==> t.labels == s.labels
  {
    if LevelsOutside(s.labels, p) {
      assert t.labels.levels == s.labels.levels;
    }
  }

  lemma PrefixTrans<T>(a: seq<T>, b: seq<T>, c: seq<T>)
    requires a <= b && b <= c
    ensures a <= c
  {
    assert c[..|a|] == b[..|a|];
  }

  lemma StepRefl(s: State, p: string)
    ensures Step(s, s, p)
  {
  }

  lemma StepTrans(s: State, t: State, u: State, p: string)
    requires Step(s, t, p) && Step(t, u, p)
    ensures Step(s, u, p)
  {
    forall k | |Results(s.out)| <= k < |Results(u.out)|
      ensures p <= Results(u.out)[k].fieldName
    {
      if k < |Results(t.out)| {
        assert Results(u.out)[k] == Results(t.out)[k];
      }
    }
  }

  lemma StepWeaken(s: State, t: State, p: string, q: string)
    requires Step(s, t, q) && p <= q
    ensures Step(s, t, p)
  {
    forall k | |Results(s.out)| <= k < |Results(t.out)|
      ensures p <= Results(t.out)[k].fieldName
    {
      PrefixTrans(p, q, Results(t.out)[k].fieldName);
    }
    forall lv | lv in s.labels.levels && !(p <= lv) ensures lv in t.labels.levels {
      if q <= lv {
        PrefixTrans(p, q, lv);
      }
    }
  }

  /** A step taken by a child at a path strictly under `p` puts its records
      strictly under `p`. */
  lemma StepBelow(s: State, t: State, p: string, q: string)
    requires Step(s, t, q) && IsProperPrefix(p, q)
    ensures Step(s, t, p) && RecordsBelow(s, t, p)
  {
    StepWeaken(s, t, p, q);
    forall k | |Results(s.out)| <= k < |Results(t.out)|
      ensures IsProperPrefix(p, Results(t.out)[k].fieldName)
    {
      PrefixTrans(p, q, Results(t.out)[k].fieldName);
    }
  }

  lemma BelowTrans(s: State, t: State, u: State, p: string)
    requires Step(s, t, p) && Step(t, u, p) && RecordsBelow(s, t, p) && RecordsBelow(t, u, p)
    ensures Step(s, u, p) && RecordsBelow(s, u, p)
  {
    StepTrans(s, t, u, p);
    forall k | |Results(s.out)| <= k < |Results(u.out)|
      ensures IsProperPrefix(p, Results(u.out)[k].fieldName)
    {
      if k < |Results(t.out)| {
        assert Results(u.out)[k] == Results(t.out)[k];
      }
    }
  }

  /** The records added up to an intermediate state come first among those
      added up to a later one. */
  lemma RecordsPrefix(s: State, t: State, u: State)
    requires Results(s.out) <= Results(t.out) && Results(t.out) <= Results(u.out)
    ensures |NewRecords(s, t)| <= |NewRecords(s, u)|
    ensures NewRecords(s, u)[..|NewRecords(s, t)|] == NewRecords(s, t)
  {
    assert Results(u.out)[..|Results(t.out)|] == Results(t.out);
  }

  /** Records appended last are the last of those added since `s`. */
  lemma RecordsSuffix(s: State, u: State, w: State, rs: seq<StructuredDiff>)
    requires Results(s.out) <= Results(u.out) && Results(w.out) == Results(u.out) + rs
    ensures |rs| <= |NewRecords(s, w)|
    ensures NewRecords(s, w)[|NewRecords(s, w)| - |rs|..] == rs
  {
    assert NewRecords(s, w) == NewRecords(s, u) + rs;
  }

  lemma EmitStep(env: Env, c: Crumb, s: State, text: string, va: string, vb: string)
    ensures Step(s, Emit(env, c, s, text, va, vb), c.path)
  {
  }

  // ---------------------------------------------------------------------
  // The cycle guard (rule 3)
  // ---------------------------------------------------------------------

  /** The cycle guard on a pair of addressable values. The A key is looked
      up first: a pairing with another B key is reported once, a pairing with
      the same B key stops silently. Otherwise a B key seen before (with
      another A key) is reported once. Both pairings are then recorded, and
      the walk stops exactly when either key had been seen. Non-addressable
      pairs pass unchanged. */
  function Guard(env: Env, c: Crumb, a: Value, b: Value, s: State): (r: (State, bool))
    requires a.Value? && b.Value?
    ensures Step(s, r.0, c.path) && r.0.labels == s.labels
    ensures !(a.addr.Some? && b.addr.Some?) ==> r == (s, false)
    ensures a.addr.Some? && b.addr.Some? ==>
              var av := Visit(a.addr.value, a.typ);
              var bv := Visit(b.addr.value, b.typ);
              && r.0.aVisited == s.aVisited[av := bv]
              && r.0.bVisited == s.bVisited[bv := av]
              && (r.1 <==> av in s.aVisited || bv in s.bVisited)
              && (if av in s.aVisited && s.aVisited[av] != bv then
                    // A seen before, paired with another B: the A side is marked
                    NewRecords(s, r.0) ==
                      [Here(env, c, s.labels, env.fmt.goSyntax(a) + " (previously visited) ", env.fmt.goSyntax(b))]
                  else if av !in s.aVisited && bv in s.bVisited then
                    // B seen before, with another A: the B side is marked
                    NewRecords(s, r.0) ==
                      [Here(env, c, s.labels, env.fmt.goSyntax(a), env.fmt.goSyntax(b) + " (previously visited) ")]
                  else r.0.lines == s.lines && r.0.out == s.out)
  {
    if a.addr.Some? && b.addr.Some? then
      var av := Visit(a.addr.value, a.typ);
      var bv := Visit(b.addr.value, b.typ);
      var t :=
        if av in s.aVisited then
          if s.aVisited[av] != bv then
            Emit(env, c, s,
                 env.fmt.pretty(a) + " (previously visited) != " + env.fmt.pretty(b),
                 env.fmt.goSyntax(a) + " (previously visited) ", env.fmt.goSyntax(b))
          else s
        else if bv in s.bVisited then
          Emit(env, c, s,
               env.fmt.pretty(a) + " != " + env.fmt.pretty(b) + " (previously visited)",
               env.fmt.goSyntax(a), env.fmt.goSyntax(b) + " (previously visited) ")
        else s;
      var cycle := av in s.aVisited || bv in s.bVisited;
      (t.(aVisited := t.aVisited[av := bv], bVisited := t.bVisited[bv := av]), cycle)
    else (s, false)
  }

  // ---------------------------------------------------------------------
  // The walk
  // ---------------------------------------------------------------------

  /** `diff(av, bv)`: rules 1 (absence), 2 (type names) and 3 (cycle guard),
      then `Compare` for the rest of the ladder. A reflection panic on the B
      side aborts the whole walk. */
  function Walk(env: Env, c: Crumb, a: Value, b: Value, s: State): (r: Outcome<State>)
    requires WellFormed(a) && WellFormed(b) && Valid(s.labels)
    ensures r.Done? ==> Step(s, r.value, c.path) && Valid(r.value.labels)
    // both absent: nothing happens
    ensures a.Invalid? && b.Invalid? ==> r == Done(s)
    // one side absent: one record with "nil" for the absent side, no descent
    ensures a.Invalid? != b.Invalid? ==>
              && r.Done? && r.value.labels == s.labels
              && r.value.aVisited == s.aVisited && r.value.bVisited == s.bVisited
              && NewRecords(s, r.value) ==
                   [StructuredDiff(c.path, Current(s.labels, c.path, env.sep),
                                   if a.Invalid? then "nil" else env.fmt.plain(a),
                                   if b.Invalid? then "nil" else env.fmt.plain(b))]
    // distinct type names, not ignored: one record naming both types, no descent
    ensures a.Value? && b.Value? && !env.policy.ignoreTypeNameDifference && a.typ != b.typ ==>
              && r.Done? && r.value.labels == s.labels
              && r.value.aVisited == s.aVisited && r.value.bVisited == s.bVisited
              && NewRecords(s, r.value) ==
                   [StructuredDiff(c.path, Current(s.labels, c.path, env.sep),
                                   env.fmt.typeName(a.typ), env.fmt.typeName(b.typ))]
    // otherwise the cycle guard runs first, and a revisit stops the walk
    // there: the guard's state is the result (its contract pins the one
    // "(previously visited)" record, if any), and nothing below is compared
    ensures a.Value? && b.Value? && (env.policy.ignoreTypeNameDifference || a.typ == b.typ)
            && a.addr.Some? && b.addr.Some?
            && (Visit(a.addr.value, a.typ) in s.aVisited || Visit(b.addr.value, b.typ) in s.bVisited) ==>
              r == Done(Guard(env, c, a, b, s).0)
    decreases Size(a), 5
  {
    if a.Invalid? && b.Value? then
      Done(Emit(env, c, s, "nil != " + env.fmt.pretty(b), "nil", env.fmt.plain(b)))
    else if a.Value? && !b.Value? then
      Done(Emit(env, c, s, env.fmt.pretty(a) + " != nil", env.fmt.plain(a), "nil"))
    else if a.Invalid? && b.Invalid? then
      Done(s)
    else if !env.policy.ignoreTypeNameDifference && a.typ != b.typ then
      Done(Mismatch(env, c, s, env.fmt.typeName(a.typ), env.fmt.typeName(b.typ)))
    else
      var (t, cycle) := Guard(env, c, a, b, s);
      if cycle then Done(t)
      else
        var r := Compare(env, c, a, b, t);
        if r.Done? then StepTrans(s, t, r.value, c.path); r else r
  }

  /** A first visit, or a pair that is not addressable, goes on to the rest
      of the ladder from the guard's state, which holds the new pairing: the
      walk's outcome is `Compare`'s, a panic included. */
  lemma WalkContinues(env: Env, c: Crumb, a: Value, b: Value, s: State)
    requires WellFormed(a) && WellFormed(b) && Valid(s.labels)
    requires a.Value? && b.Value? && (env.policy.ignoreTypeNameDifference || a.typ == b.typ)
    requires !Guard(env, c, a, b, s).1
    ensures Walk(env, c, a, b, s) == Compare(env, c, a, b, Guard(env, c, a, b, s).0)
  {
  }

  /** Rules 5 and 6: a comparator registered for the A side's type, else the
      numeric comparator when both sides convert to float64, decides the node
      on its own; otherwise the per-kind rules apply. */
  function Compare(env: Env, c: Crumb, a: Value, b: Value, s: State): (r: Outcome<State>)
    requires a.Value? && b.Value?
    requires WellFormed(a) && WellFormed(b) && Valid(s.labels)
    ensures r.Done? ==> Step(s, r.value, c.path) && Valid(r.value.labels)
    // a registered comparator alone decides: at most one record, no descent
    ensures a.typ in env.policy.customComparators ==>
              && r.Done? && r.value.labels == s.labels
              && r.value.aVisited == s.aVisited && r.value.bVisited == s.bVisited
              && NewRecords(s, r.value) ==
                   if env.policy.customComparators[a.typ](a, b) then []
                   else [StructuredDiff(c.path, Current(s.labels, c.path, env.sep),
                                        env.fmt.plain(a), env.fmt.plain(b))]
    // otherwise the numeric comparator alone decides between numbers
    ensures a.typ !in env.policy.customComparators && env.policy.numericComparator.Some?
            && IsNumeric(a) && IsNumeric(b) ==>
              && r.Done? && r.value.labels == s.labels
              && r.value.aVisited == s.aVisited && r.value.bVisited == s.bVisited
              && NewRecords(s, r.value) ==
                   if env.policy.numericComparator.value(AsFloat(a), AsFloat(b)) then []
                   else [StructuredDiff(c.path, Current(s.labels, c.path, env.sep),
                                        env.fmt.plain(a), env.fmt.plain(b))]
    decreases Size(a), 4
  {
    if a.typ in env.policy.customComparators then
      var equal := env.policy.customComparators[a.typ](a, b);
      Done(ReportIf(env, c, s, !equal, env.fmt.plain(a), env.fmt.plain(b)))
    else if env.policy.numericComparator.Some? && IsNumeric(a) && IsNumeric(b) then
      var equal := env.policy.numericComparator.value(AsFloat(a), AsFloat(b));
      Done(ReportIf(env, c, s, !equal, env.fmt.plain(a), env.fmt.plain(b)))
    else
      Structural(env, c, a, b, s)
  }

  /** Rule 7: the comparison chosen by the kind of the A side. The B side is
      read through reflection accessors, which abort on a value of another
      kind (reachable when type names are ignored). Every kind has a rule, so
      the source's "unknown reflect Kind" panic cannot happen. */
  function Structural(env: Env, c: Crumb, a: Value, b: Value, s: State): (r: Outcome<State>)
    requires a.Value? && b.Value?
    requires WellFormed(a) && WellFormed(b) && Valid(s.labels)
    ensures r.Done? ==> Step(s, r.value, c.path) && Valid(r.value.labels)
    ensures r.Done? && (a.data.Array? || a.data.Map? || a.data.Struct?) ==>
              RecordsBelow(s, r.value, c.path)
    ensures r.Done? && a.data.Struct? ==> c.path !in r.value.labels.levels
    decreases Size(a), 3
  {
    match a.data
    case Array(_) => WalkElems(env, c, a, b, 0, s)
    case Slice(_) => WalkSlice(env, c, a, b, s)
    case Iface(_) => WalkIface(env, c, a, b, s)
    case Map(_) => WalkMap(env, c, a, b, s)
    case Ptr(_, _) => WalkPtr(env, c, a, b, s)
    case Struct(_) => WalkStruct(env, c, a, b, s)
    case _ => Leaf(env, c, a, b, s)
  }

  /** The kinds without children: booleans, integers, unsigned integers,
      floats and complex numbers compare as "%v" or "%d", channels, funcs
      and unsafe pointers compare their addresses as "%#x", strings compare
      quoted. At most one record, and nothing else changes. */
  function Leaf(env: Env, c: Crumb, a: Value, b: Value, s: State): (r: Outcome<State>)
    requires a.Value? && b.Value?
    requires a.data.Bool? || a.data.Int? || a.data.Uint? || a.data.Float? || a.data.Complex?
          || a.data.Opaque? || a.data.Str?
    ensures r.Done? ==>
              && Step(s, r.value, c.path) && |NewRecords(s, r.value)| <= 1
              && r.value.labels == s.labels
              && r.value.aVisited == s.aVisited && r.value.bVisited == s.bVisited
    // a string is never an error, whatever the B side holds
    ensures a.data.Str? ==> r.Done?
    ensures LeafSpec(env, c, a, b, s, r)
  {
    match a.data
    case Bool(x) => Reading(env, c, s, x, BoolOf(b), env.fmt.boolText)
    case Int(x) => Reading(env, c, s, x, IntOf(b), env.fmt.decimal)
    case Uint(x) => Reading(env, c, s, x, UintOf(b), env.fmt.decimal)
    case Float(x) => Reading(env, c, s, x, FloatOf(b), env.fmt.floatText)
    case Complex(re, im) => Reading(env, c, s, (re, im), ComplexOf(b), (p: (real, real)) => env.fmt.complexText(p.0, p.1))
    case Opaque(_, p) => Reading(env, c, s, p, PointerOf(b), env.fmt.hex)
    case Str(x) => Reading(env, c, s, x, Done(StringOf(env.fmt, b)), env.fmt.quote)
  }

  /** What a leaf comparison does, kind by kind: the B side is read with the
      accessor of A's kind (a string is read leniently and never aborts), the
      two readings are rendered with the kind's printer, and a record is
      made exactly when they differ. */
  ghost predicate LeafSpec(env: Env, c: Crumb, a: Value, b: Value, s: State, r: Outcome<State>)
    requires a.Value?
  {
    match a.data
    case Bool(x) => Reported(env, c, s, x, BoolOf(b), env.fmt.boolText, r)
    case Int(x) => Reported(env, c, s, x, IntOf(b), env.fmt.decimal, r)
    case Uint(x) => Reported(env, c, s, x, UintOf(b), env.fmt.decimal, r)
    case Float(x) => Reported(env, c, s, x, FloatOf(b), env.fmt.floatText, r)
    case Complex(re, im) =>
      Reported(env, c, s, (re, im), ComplexOf(b), (p: (real, real)) => env.fmt.complexText(p.0, p.1), r)
    case Opaque(_, p) => Reported(env, c, s, p, PointerOf(b), env.fmt.hex, r)
    case Str(x) => Reported(env, c, s, x, Done(StringOf(env.fmt, b)), env.fmt.quote, r)
    case _ => true
  }

  /** `r` aborts exactly when the B reading `y` did; otherwise it adds the
      one record "show(x) against show(y)" when the readings differ, and
      nothing when they agree, at `c` and with the labels of `s`. */
  ghost predicate Reported<T>(env: Env, c: Crumb, s: State, x: T, y: Outcome<T>, show: T -> string,
                                  r: Outcome<State>)
  {
    && (r.Done? <==> y.Done?)
    && (r.Done? ==>
          && Step(s, r.value, c.path)
          && r.value.labels == s.labels
          && r.value.aVisited == s.aVisited && r.value.bVisited == s.bVisited
          && NewRecords(s, r.value) ==
               (if x == y.value then [] else [Here(env, c, s.labels, show(x), show(y.value))]))
  }

  /** One leaf kind: `x` is the A side's reading, `y` the B side's reading,
      `show` how a reading is rendered. */
  function Reading<T(==)>(env: Env, c: Crumb, s: State, x: T, y: Outcome<T>, show: T -> string): (r: Outcome<State>)
    ensures Reported(env, c, s, x, y, show, r)
  {
    var v :- y;
    Done(ReportIf(env, c, s, x != v, show(x), show(v)))
  }

  /** An interface: the held values are compared at the same path. */
  function WalkIface(env: Env, c: Crumb, a: Value, b: Value, s: State): (r: Outcome<State>)
    requires a.Value? && a.data.Iface?
    requires WellFormed(a) && WellFormed(b) && Valid(s.labels)
    ensures r.Done? ==> Step(s, r.value, c.path) && Valid(r.value.labels)
    ensures ElemOf(b).Panic? ==> r.Panic?
    ensures ElemOf(b).Done? ==> (ChildrenSmaller(a); r == Walk(env, c, a.data.held, ElemOf(b).value, s))
    decreases Size(a), 2
  {
    var hb :- ElemOf(b);
    ChildrenSmaller(a);
    Walk(env, c, a.data.held, hb, s)
  }

  /** A slice: unequal lengths give one record "T[lenA]" against "T[lenB]"
      and no element is compared; equal lengths compare every element. */
  function WalkSlice(env: Env, c: Crumb, a: Value, b: Value, s: State): (r: Outcome<State>)
    requires a.Value? && a.data.Slice?
    requires WellFormed(a) && WellFormed(b) && Valid(s.labels)
    ensures r.Done? ==> Step(s, r.value, c.path) && Valid(r.value.labels)
    ensures LenOf(b).Panic? ==> r.Panic?
    // unequal lengths: one record of the two lengths, no element compared
    ensures LenOf(b).Done? && LenOf(b).value != |a.data.elems| ==>
              && r.Done? && r.value.labels == s.labels
              && r.value.aVisited == s.aVisited && r.value.bVisited == s.bVisited
              && NewRecords(s, r.value) ==
                   [StructuredDiff(c.path, Current(s.labels, c.path, env.sep),
                      env.fmt.typeName(a.typ) + "[" + env.fmt.decimal(|a.data.elems|) + "]",
                      env.fmt.typeName(b.typ) + "[" + env.fmt.decimal(LenOf(b).value) + "]")]
    // equal lengths: only element records, all strictly under this path
    ensures LenOf(b).Done? && LenOf(b).value == |a.data.elems| && r.Done? ==>
              RecordsBelow(s, r.value, c.path)
    // equal lengths: every element is compared, from index 0
    ensures LenOf(b).Done? && LenOf(b).value == |a.data.elems| ==> r == WalkElems(env, c, a, b, 0, s)
    decreases Size(a), 2
  {
    var lb :- LenOf(b);
    var la := |a.data.elems|;
    if la != lb then
      Done(Mismatch(env, c, s,
                    env.fmt.typeName(a.typ) + "[" + env.fmt.decimal(la) + "]",
                    env.fmt.typeName(b.typ) + "[" + env.fmt.decimal(lb) + "]"))
    else WalkElems(env, c, a, b, 0, s)
  }

  /** Elements `i`, `i+1`, … of an array or slice, each at segment "[i]",
      in increasing index order. */
  function WalkElems(env: Env, c: Crumb, a: Value, b: Value, i: nat, s: State): (r: Outcome<State>)
    requires a.Value? && (a.data.Array? || a.data.Slice?) && i <= |a.data.elems|
    requires WellFormed(a) && WellFormed(b) && Valid(s.labels)
    ensures r.Done? ==>
              Step(s, r.value, c.path) && RecordsBelow(s, r.value, c.path) && Valid(r.value.labels)
    ensures i == |a.data.elems| ==> r == Done(s)
    decreases Size(a), 1, |a.data.elems| - i
  {
    if i == |a.data.elems| then
      StepRefl(s, c.path);
      Done(s)
    else
      var y :- IndexOf(b, i);
      ChildrenSmaller(a);
      var d := Relabel(c, IndexSegment(env, i));
      var t :- Walk(env, d, a.data.elems[i], y, s);
      StepBelow(s, t, c.path, d.path);
      var u :- WalkElems(env, c, a, b, i + 1, t);
      BelowTrans(s, t, u, c.path);
      Done(u)
  }

  /** A map: the keys only in A are reported missing in B, the common keys
      are walked, the keys only in B are reported missing in A, each group
      in key order and each key at segment "[key]". */
  function WalkMap(env: Env, c: Crumb, a: Value, b: Value, s: State): (r: Outcome<State>)
    requires a.Value? && a.data.Map?
    requires WellFormed(a) && WellFormed(b) && Valid(s.labels)
    ensures r.Done? ==>
              Step(s, r.value, c.path) && RecordsBelow(s, r.value, c.path) && Valid(r.value.labels)
    // a B side that is not a map panics
    ensures !(b.Value? && b.data.Map?) ==> r.Panic?
    // the keys only in A are reported first, in order; the keys only in B
    // last, in order, with the labels the walk started with
    ensures r.Done? ==>
              && b.Value? && b.data.Map?
              && (MapKeysComparable(a, b);
                 MapReports(env, c, a.data.entries, b.data.entries,
                            KeyDiff(Keys(a.data.entries), Keys(b.data.entries)), s, r.value))
    decreases Size(a), 2
  {
    var bes :- EntriesOf(b);
    MapKeysComparable(a, b);
    WalkMapKeys(env, c, a, b.data.entries, KeyDiff(Keys(a.data.entries), Keys(b.data.entries)), s)
  }

  /** The three loops over the partitioned keys. */
  function WalkMapKeys(env: Env, c: Crumb, a: Value, bes: seq<Entry>, ks: KeySplit, s: State)
    : (r: Outcome<State>)
    requires a.Value? && a.data.Map?
    requires AllComparable(ks.onlyA) && AllComparable(ks.both) && AllComparable(ks.onlyB)
    requires WellFormed(a) && Valid(s.labels)
    requires forall i :: 0 <= i < |bes| ==> WellFormed(bes[i].val)
    ensures r.Done? ==>
              Step(s, r.value, c.path) && RecordsBelow(s, r.value, c.path) && Valid(r.value.labels)
    ensures r.Done? ==> MapReports(env, c, a.data.entries, bes, ks, s, r.value)
    // from a store with no level at or under this path, the labels are
    // restored
    ensures r.Done? && LevelsOutside(s.labels, c.path) ==> r.value.labels == s.labels
    decreases Size(a), 1, |ks.both| + 1
  {
    var t := ReportMissing(env, c, a.data.entries, ks.onlyA, true, s);
    var u :- WalkCommon(env, c, a, bes, ks.both, t);
    MapKeysAssembled(env, c, a, bes, ks, s, u);
    Done(ReportMissing(env, c, bes, ks.onlyB, false, u))
  }

  /** The three groups of a map walk put together: the A-only reports, then
      whatever the common keys' walks added (a step strictly below `c`), then
      the B-only reports. */
  lemma MapKeysAssembled(env: Env, c: Crumb, a: Value, bes: seq<Entry>, ks: KeySplit, s: State, u: State)
    requires a.Value? && a.data.Map? && AllComparable(ks.onlyA) && AllComparable(ks.onlyB)
    requires var t := ReportMissing(env, c, a.data.entries, ks.onlyA, true, s);
             Step(t, u, c.path) && RecordsBelow(t, u, c.path)
    ensures var w := ReportMissing(env, c, bes, ks.onlyB, false, u);
            && Step(s, w, c.path) && RecordsBelow(s, w, c.path)
            && MapReports(env, c, a.data.entries, bes, ks, s, w)
            && (LevelsOutside(s.labels, c.path) ==> w.labels == s.labels)
  {
    var t := ReportMissing(env, c, a.data.entries, ks.onlyA, true, s);
    var w := ReportMissing(env, c, bes, ks.onlyB, false, u);
    ReportMissingStep(env, c, a.data.entries, ks.onlyA, true, s);
    ReportMissingStep(env, c, bes, ks.onlyB, false, u);
    BelowTrans(s, t, u, c.path);
    BelowTrans(s, u, w, c.path);
    RecordsPrefix(s, t, w);
    RecordsSuffix(s, u, w, MissingRecords(env, c, bes, ks.onlyB, false, u.labels));
    LabelsRestored(s, u, c.path);
    assert |NewRecords(s, w)| == |NewRecords(s, t)| + |NewRecords(t, u)| + |NewRecords(u, w)|;
  }

  /** Go's type system makes every key of both maps comparable, and so every
      key the partition hands out. */
  lemma MapKeysComparable(a: Value, b: Value)
    requires a.Value? && a.data.Map? && b.Value? && b.data.Map?
    requires WellFormed(a) && WellFormed(b)
    ensures AllComparable(Keys(a.data.entries)) && AllComparable(Keys(b.data.entries))
    ensures forall i :: 0 <= i < |b.data.entries| ==> WellFormed(b.data.entries[i].val)
    ensures AllComparable(KeyDiff(Keys(a.data.entries), Keys(b.data.entries)).onlyB)
  {
    var kb := Keys(b.data.entries);
    var ks := KeyDiff(Keys(a.data.entries), kb);
    forall i | 0 <= i < |ks.onlyB| ensures Comparable(ks.onlyB[i]) {
      assert ks.onlyB[i] in kb;
    }
  }

  /** The two renderings reported for a key found on one side only: the
      element quoted against "(missing)", in the order of the sides. */
  function MissingPair(env: Env, es: seq<Entry>, k: Value, inA: bool): (string, string)
    requires Comparable(k)
  {
    if inA then (env.fmt.quoted(MapIndex(es, k)), "(missing)")
    else ("(missing)", env.fmt.quoted(MapIndex(es, k)))
  }

  /** The report about key `k` found on one side only, with the labels of
      store `l` visible at its path "[key]". */
  function MissingRecord(env: Env, c: Crumb, es: seq<Entry>, k: Value, inA: bool, l: Labels)
    : StructuredDiff
    requires Comparable(k)
  {
    var p := Relabel(c, KeySegment(env, k)).path;
    StructuredDiff(p, Current(l, p, env.sep),
                   MissingPair(env, es, k, inA).0, MissingPair(env, es, k, inA).1)
  }

  /** The reports about keys `ks`, one per key and in key order. */
  function MissingRecords(env: Env, c: Crumb, es: seq<Entry>, ks: seq<Value>, inA: bool, l: Labels)
    : (rs: seq<StructuredDiff>)
    requires AllComparable(ks)
    ensures |rs| == |ks|
  {
    seq(|ks|, j requires 0 <= j < |ks| => MissingRecord(env, c, es, ks[j], inA, l))
  }

  /** The text lines of those reports, "%q != (missing)" at "[key]". */
  function MissingLines(env: Env, c: Crumb, es: seq<Entry>, ks: seq<Value>, inA: bool): (ls: seq<string>)
    requires AllComparable(ks)
    ensures |ls| == |ks|
  {
    seq(|ks|, j requires 0 <= j < |ks| =>
      var pr := MissingPair(env, es, ks[j], inA);
      Line(Relabel(c, KeySegment(env, ks[j])).path, pr.0 + " != " + pr.1))
  }

  /** The records a map walk from `s` to `t` adds around its common keys'
      walks: the reports of the keys only in A first, in key order; the
      reports of the keys only in B, distinct from those, last and in key
      order, with the labels the walk started with when no label level lies
      at or under the map's path. */
  ghost predicate MapReports(env: Env, c: Crumb, aes: seq<Entry>, bes: seq<Entry>, ks: KeySplit, s: State, t: State)
    requires AllComparable(ks.onlyA) && AllComparable(ks.onlyB)
  {
    && |Results(s.out)| <= |Results(t.out)|
    && var n := |NewRecords(s, t)|;
       && |ks.onlyA| + |ks.onlyB| <= n
       && NewRecords(s, t)[..|ks.onlyA|] == MissingRecords(env, c, aes, ks.onlyA, true, s.labels)
       && (LevelsOutside(s.labels, c.path) ==>
             NewRecords(s, t)[n - |ks.onlyB|..] == MissingRecords(env, c, bes, ks.onlyB, false, s.labels))
  }

  /** Lines and records appended pairwise, in order, and nothing else
      changed. */
  function AppendAll(s: State, lines: seq<string>, recs: seq<StructuredDiff>): (t: State)
    requires |lines| == |recs|
    ensures t.lines == s.lines + lines
    ensures Results(t.out) == Results(s.out) + recs
    ensures t.aVisited == s.aVisited && t.bVisited == s.bVisited && t.labels == s.labels
    decreases |lines|
  {
    if lines == [] then s
    else
      var t := AppendAll(Append(s, lines[0], recs[0]), lines[1..], recs[1..]);
      assert s.lines + [lines[0]] + lines[1..] == s.lines + lines;
      assert Results(s.out) + [recs[0]] + recs[1..] == Results(s.out) + recs;
      t
  }

  /** The keys found on one side only (`inA` says which), whose elements are
      in `es`: one "%q != (missing)" report each, in key order, at segment
      "[key]". The label store does not change along the way, so every
      record carries the labels visible from its key's path. */
  function ReportMissing(env: Env, c: Crumb, es: seq<Entry>, ks: seq<Value>, inA: bool, s: State)
    : (r: State)
    requires AllComparable(ks)
    ensures r.labels == s.labels && r.aVisited == s.aVisited && r.bVisited == s.bVisited
    ensures r.lines == s.lines + MissingLines(env, c, es, ks, inA)
    ensures Results(r.out) == Results(s.out) + MissingRecords(env, c, es, ks, inA, s.labels)
  {
    AppendAll(s, MissingLines(env, c, es, ks, inA), MissingRecords(env, c, es, ks, inA, s.labels))
  }

  /** Those reports are a step of the walk at `c`, all strictly below it,
      each at its own key's segment. */
  lemma ReportMissingStep(env: Env, c: Crumb, es: seq<Entry>, ks: seq<Value>, inA: bool, s: State)
    requires AllComparable(ks)
    ensures var r := ReportMissing(env, c, es, ks, inA, s);
            Step(s, r, c.path) && RecordsBelow(s, r, c.path)
    // the j-th report lies at the j-th key's segment "[key]"
    ensures var r := ReportMissing(env, c, es, ks, inA, s);
            && |Results(r.out)| == |Results(s.out)| + |ks|
            && forall j :: 0 <= j < |ks| ==>
                 Results(r.out)[|Results(s.out)| + j].fieldName == Relabel(c, KeySegment(env, ks[j])).path
  {
    var r := ReportMissing(env, c, es, ks, inA, s);
    var rs := MissingRecords(env, c, es, ks, inA, s.labels);
    forall k | |Results(s.out)| <= k < |Results(r.out)|
      ensures IsProperPrefix(c.path, Results(r.out)[k].fieldName)
    {
      var j := k - |Results(s.out)|;
      assert Results(r.out)[k] == rs[j];
      var d := Relabel(c, KeySegment(env, ks[j]));
      assert rs[j].fieldName == d.path;
    }
  }

  /** The two elements under a common key are well formed, and the A side's
      is smaller than its map. */
  lemma CommonChildren(a: Value, bes: seq<Entry>, k: Value)
    requires a.Value? && a.data.Map? && Comparable(k) && WellFormed(a)
    requires forall i :: 0 <= i < |bes| ==> WellFormed(bes[i].val)
    ensures Size(MapIndex(a.data.entries, k)) < Size(a)
    ensures WellFormed(MapIndex(a.data.entries, k)) && WellFormed(MapIndex(bes, k))
  {
    ChildrenSmaller(a);
  }

  /** The keys in both maps: the two elements under each key are walked. */
  function WalkCommon(env: Env, c: Crumb, a: Value, bes: seq<Entry>, ks: seq<Value>, s: State)
    : (r: Outcome<State>)
    requires a.Value? && a.data.Map? && AllComparable(ks)
    requires WellFormed(a) && Valid(s.labels)
    requires forall i :: 0 <= i < |bes| ==> WellFormed(bes[i].val)
    ensures r.Done? ==>
              Step(s, r.value, c.path) && RecordsBelow(s, r.value, c.path) && Valid(r.value.labels)
    ensures ks == [] ==> r == Done(s)
    decreases Size(a), 1, |ks|
  {
    if ks == [] then
      StepRefl(s, c.path);
      Done(s)
    else
      CommonChildren(a, bes, ks[0]);
      var d := Relabel(c, KeySegment(env, ks[0]));
      var t := Walk(env, d, MapIndex(a.data.entries, ks[0]), MapIndex(bes, ks[0]), s);
      if t.Panic? then t
      else
        StepBelow(s, t.value, c.path, d.path);
        var u := WalkCommon(env, c, a, bes, ks[1..], t.value);
        if u.Done? then BelowTrans(s, t.value, u.value, c.path); u else u
  }

  /** A pointer: nil against non-nil is reported once (either way round), two
      non-nil pointers are followed, two nil pointers agree. */
  function WalkPtr(env: Env, c: Crumb, a: Value, b: Value, s: State): (r: Outcome<State>)
    requires a.Value? && a.data.Ptr?
    requires WellFormed(a) && WellFormed(b) && Valid(s.labels)
    ensures r.Done? ==> Step(s, r.value, c.path) && Valid(r.value.labels)
    ensures IsNilOf(b).Panic? ==> r.Panic?
    // exactly one side nil: one record, with "nil" for the nil side
    ensures IsNilOf(b).Done? && (a.data.elem.None? != IsNilOf(b).value) ==>
              && r.Done? && r.value.labels == s.labels
              && r.value.aVisited == s.aVisited && r.value.bVisited == s.bVisited
              && NewRecords(s, r.value) ==
                   [StructuredDiff(c.path, Current(s.labels, c.path, env.sep),
                      if a.data.elem.None? then "nil" else env.fmt.goSyntax(a),
                      if IsNilOf(b).value then "nil" else env.fmt.goSyntax(b))]
    // both nil: agreement
    ensures IsNilOf(b).Done? && a.data.elem.None? && IsNilOf(b).value ==> r == Done(s)
    // both non-nil: the pointees are compared at the same path
    ensures IsNilOf(b) == Done(false) && a.data.elem.Some? ==>
              r == (var eb :- ElemOf(b); ChildrenSmaller(a); Walk(env, c, a.data.elem.value, eb, s))
    decreases Size(a), 2
  {
    var bNil :- IsNilOf(b);
    if a.data.elem.None? != bNil then Done(OneNil(env, c, a, b, s, bNil))
    else if bNil then Done(s)
    else
      var eb :- ElemOf(b);
      ChildrenSmaller(a);
      Walk(env, c, a.data.elem.value, eb, s)
  }

  /** The report of a pointer compared with a nil one: "nil" on the nil side. */
  function OneNil(env: Env, c: Crumb, a: Value, b: Value, s: State, bNil: bool): (t: State)
    requires a.Value? && a.data.Ptr? && a.data.elem.None? != bNil
    ensures Step(s, t, c.path) && t.labels == s.labels
    ensures t.aVisited == s.aVisited && t.bVisited == s.bVisited
    ensures NewRecords(s, t) ==
              [Here(env, c, s.labels, if a.data.elem.None? then "nil" else env.fmt.goSyntax(a),
                                      if bNil then "nil" else env.fmt.goSyntax(b))]
  {
    if bNil then Emit(env, c, s, env.fmt.pretty(a) + " != nil", env.fmt.goSyntax(a), "nil")
    else Emit(env, c, s, "nil != " + env.fmt.pretty(b), "nil", env.fmt.goSyntax(b))
  }

  /** A struct: the labels are captured from A's string fields at this
      path's level before any field is compared, the fields are walked in
      declaration order under their names, then this level is cleared. */
  function WalkStruct(env: Env, c: Crumb, a: Value, b: Value, s: State): (r: Outcome<State>)
    requires a.Value? && a.data.Struct?
    requires WellFormed(a) && WellFormed(b) && Valid(s.labels)
    ensures r.Done? ==>
              && Step(s, r.value, c.path) && RecordsBelow(s, r.value, c.path)
              && Valid(r.value.labels) && c.path !in r.value.labels.levels
    // the fields are walked with this level's labels captured, and the
    // level is cleared afterwards
    ensures var w := WalkFields(env, c, a, b, 0, s.(labels := CaptureLabels(s.labels, c.path, a.data.fields)));
            if w.Panic? then r.Panic? else r == Done(w.value.(labels := Clear(w.value.labels, c.path)))
    decreases Size(a), 2
  {
    var captured := CaptureLabels(s.labels, c.path, a.data.fields);
    var s1 := s.(labels := captured);
    var t :- WalkFields(env, c, a, b, 0, s1);
    var u := t.(labels := Clear(t.labels, c.path));
    Done(u)
  }

  /** The first loop over a struct's fields: every string field whose name
      is a configured label records its value at `level`, in declaration
      order. */
  function CaptureLabels(l: Labels, level: string, fs: seq<Field>): (r: Labels)
    requires Valid(l)
    ensures Valid(r) && r.names == l.names && r.nameSet == l.nameSet
    ensures forall lv :: lv != level ==>
              (lv in r.levels <==> lv in l.levels) && (lv in l.levels ==> r.levels[lv] == l.levels[lv])
    // a configured name takes the value of its last string field, if any
    ensures forall n :: n in l.names ==>
              ValueAt(r, level, n) ==
                if LastStringField(fs, n).Some? then LastStringField(fs, n).value else ValueAt(l, level, n)
    // the level is recorded exactly when it was already, or a configured
    // name has a string field
    ensures level in r.levels <==>
              level in l.levels || exists n :: n in l.names && LastStringField(fs, n).Some?
    decreases |fs|
  {
    if fs == [] then l
    else
      var f := fs[0];
      var l1 := if f.val.Value? && f.val.data.Str? then SetIfExists(l, level, f.name, f.val.data.s) else l;
      CaptureLabels(l1, level, fs[1..])
  }

  /** Reference reading of a field list: the value of the last string field
      named `n`, if there is one. */
  function LastStringField(fs: seq<Field>, n: string): (v: Option<string>)
    ensures v.Some? <==> exists i :: 0 <= i < |fs| && fs[i].name == n && fs[i].val.Value? && fs[i].val.data.Str?
    decreases |fs|
  {
    if fs == [] then None
    else
      var later := LastStringField(fs[1..], n);
      if later.Some? then later
      else if fs[0].name == n && fs[0].val.Value? && fs[0].val.data.Str? then Some(fs[0].val.data.s)
      else None
  }

  /** The second loop over a struct's fields: fields `i`, `i+1`, … walked
      against the B side's fields at the same positions. */
  function WalkFields(env: Env, c: Crumb, a: Value, b: Value, i: nat, s: State): (r: Outcome<State>)
    requires a.Value? && a.data.Struct? && i <= |a.data.fields|
    requires WellFormed(a) && WellFormed(b) && Valid(s.labels)
    ensures r.Done? ==>
              Step(s, r.value, c.path) && RecordsBelow(s, r.value, c.path) && Valid(r.value.labels)
    // the struct's own level, captured before the loop, is still there
    // unchanged for every field
    ensures r.Done? && c.path in s.labels.levels ==>
              c.path in r.value.labels.levels && r.value.labels.levels[c.path] == s.labels.levels[c.path]
    ensures i == |a.data.fields| ==> r == Done(s)
    decreases Size(a), 1, |a.data.fields| - i
  {
    if i == |a.data.fields| then
      StepRefl(s, c.path);
      Done(s)
    else
      var f := a.data.fields[i];
      var y :- FieldOf(b, i);
      ChildrenSmaller(a);
      var d := Relabel(c, f.name);
      var t :- Walk(env, d, f.val, y, s);
      StepBelow(s, t, c.path, d.path);
      var u :- WalkFields(env, c, a, b, i + 1, t);
      BelowTrans(s, t, u, c.path);
      Done(u)
  }
}

=== FILE: walker_props.dfy ===
/** Properties of the walker that relate several calls: comparing a value
    with itself reports nothing, the cycle guard is idempotent, and a field
    segment adds exactly its own breadcrumbs. */
module WalkerProps {
  import opened Basics
  import opened Values
  import opened KeyPartition
  import opened Breadcrumbs
  import opened StructuredOutput
  import opened LabelStore
  import opened Walker

  /** Every comparator the policy holds says a value equals itself. */
  ghost predicate Reflexive(p: Policy) {
    && (forall t, v :: t in p.customComparators ==> p.customComparators[t](v, v))
    && (p.numericComparator.Some? ==> forall x :: p.numericComparator.value(x, x))
  }

  /** The visited maps of a walk that compares a value with itself: each
      address is paired with itself, and the B side saw nothing the A side
      did not. */
  ghost predicate SelfPaired(s: State) {
    && (forall v :: v in s.aVisited ==> s.aVisited[v] == v)
    && (forall v :: v in s.bVisited ==> v in s.aVisited)
  }

  /** What comparing a value with itself leaves behind: no line, no record,
      and self-paired visited maps. */
  ghost predicate Silent(s: State, r: Outcome<State>) {
    r.Done? && r.value.lines == s.lines && r.value.out == s.out && SelfPaired(r.value)
      && Valid(r.value.labels)
  }

  /** A value compared with itself gives no difference and no panic, as long
      as every registered comparator is reflexive. */
  lemma {:induction false} SelfWalk(env: Env, c: Crumb, a: Value, s: State)
    requires WellFormed(a) && Valid(s.labels) && SelfPaired(s) && Reflexive(env.policy)
    ensures Silent(s, Walk(env, c, a, a, s))
    decreases Size(a), 5
  {
    if a.Value? {
      var (t, cycle) := Guard(env, c, a, a, s);
      assert SelfPaired(t) && t.lines == s.lines && t.out == s.out;
      if !cycle {
        SelfCompare(env, c, a, t);
      }
    }
  }

  lemma {:induction false} SelfCompare(env: Env, c: Crumb, a: Value, s: State)
    requires a.Value?
    requires WellFormed(a) && Valid(s.labels) && SelfPaired(s) && Reflexive(env.policy)
    ensures Silent(s, Compare(env, c, a, a, s))
    decreases Size(a), 4
  {
    if a.typ in env.policy.customComparators {
      assert env.policy.customComparators[a.typ](a, a);
    } else if env.policy.numericComparator.Some? && IsNumeric(a) {
      assert env.policy.numericComparator.value(AsFloat(a), AsFloat(a));
    } else {
      SelfStructural(env, c, a, s);
    }
  }

  lemma {:induction false} SelfStructural(env: Env, c: Crumb, a: Value, s: State)
    requires a.Value?
    requires WellFormed(a) && Valid(s.labels) && SelfPaired(s) && Reflexive(env.policy)
    ensures Silent(s, Structural(env, c, a, a, s))
    decreases Size(a), 3
  {
    ChildrenSmaller(a);
    match a.data
    case Array(_) => SelfElems(env, c, a, 0, s);
    case Slice(_) => SelfElems(env, c, a, 0, s);
    case Iface(h) => SelfWalk(env, c, h, s);
    case Map(_) => SelfMap(env, c, a, s);
    case Ptr(_, e) =>
      if e.Some? {
        SelfWalk(env, c, e.value, s);
      }
    case Struct(_) => SelfStruct(env, c, a, s);
    case _ =>
  }

  lemma {:induction false} SelfElems(env: Env, c: Crumb, a: Value, i: nat, s: State)
    requires a.Value? && (a.data.Array? || a.data.Slice?) && i <= |a.data.elems|
    requires WellFormed(a) && Valid(s.labels) && SelfPaired(s) && Reflexive(env.policy)
    ensures Silent(s, WalkElems(env, c, a, a, i, s))
    decreases Size(a), 1, |a.data.elems| - i
  {
    if i < |a.data.elems| {
      ChildrenSmaller(a);
      var d := Relabel(c, IndexSegment(env, i));
      var x := a.data.elems[i];
      SelfWalk(env, d, x, s);
      var t := Walk(env, d, x, x, s).value;
      SelfElems(env, c, a, i + 1, t);
    }
  }

  /** A map compared with itself: every key is common, no key is missing on
      either side, and the walk is the walk over the common keys alone. */
  lemma {:induction false} SelfMap(env: Env, c: Crumb, a: Value, s: State)
    requires a.Value? && a.data.Map?
    requires WellFormed(a) && Valid(s.labels) && SelfPaired(s) && Reflexive(env.policy)
    ensures (MapKeysComparable(a, a);
             var ks := Keys(a.data.entries);
             && KeyDiff(ks, ks) == KeySplit([], ks, [])
             && WalkMap(env, c, a, a, s) == WalkCommon(env, c, a, a.data.entries, ks, s))
    ensures Silent(s, WalkMap(env, c, a, a, s))
    decreases Size(a), 2
  {
    var es := a.data.entries;
    MapKeysComparable(a, a);
    KeyDiffSelf(Keys(es));
    assert ReportMissing(env, c, es, [], true, s) == s;
    SelfCommon(env, c, a, Keys(es), s);
    var u := WalkCommon(env, c, a, es, Keys(es), s).value;
    assert ReportMissing(env, c, es, [], false, u) == u;
  }

  lemma {:induction false} SelfCommon(env: Env, c: Crumb, a: Value, ks: seq<Value>, s: State)
    requires a.Value? && a.data.Map? && AllComparable(ks)
    requires WellFormed(a) && Valid(s.labels) && SelfPaired(s) && Reflexive(env.policy)
    ensures Silent(s, WalkCommon(env, c, a, a.data.entries, ks, s))
    decreases Size(a), 1, |ks|
  {
    if ks != [] {
      var es := a.data.entries;
      var x := MapIndex(es, ks[0]);
      ChildrenSmaller(a);
      var d := Relabel(c, KeySegment(env, ks[0]));
      SelfWalk(env, d, x, s);
      var t := Walk(env, d, x, x, s).value;
      SelfCommon(env, c, a, ks[1..], t);
    }
  }

  lemma {:induction false} SelfStruct(env: Env, c: Crumb, a: Value, s: State)
    requires a.Value? && a.data.Struct?
    requires WellFormed(a) && Valid(s.labels) && SelfPaired(s) && Reflexive(env.policy)
    ensures Silent(s, WalkStruct(env, c, a, a, s))
    decreases Size(a), 2
  {
    var s1 := s.(labels := CaptureLabels(s.labels, c.path, a.data.fields));
    SelfFields(env, c, a, 0, s1);
  }

  lemma {:induction false} SelfFields(env: Env, c: Crumb, a: Value, i: nat, s: State)
    requires a.Value? && a.data.Struct? && i <= |a.data.fields|
    requires WellFormed(a) && Valid(s.labels) && SelfPaired(s) && Reflexive(env.policy)
    ensures Silent(s, WalkFields(env, c, a, a, i, s))
    decreases Size(a), 1, |a.data.fields| - i
  {
    if i < |a.data.fields| {
      ChildrenSmaller(a);
      var f := a.data.fields[i];
      var d := Relabel(c, f.name);
      SelfWalk(env, d, f.val, s);
      var t := Walk(env, d, f.val, f.val, s).value;
      SelfFields(env, c, a, i + 1, t);
    }
  }

  /** Guarding the same addressable pair a second time stops the walk there
      without a record and without changing anything. */
  lemma GuardRevisit(env: Env, c: Crumb, a: Value, b: Value, s: State)
    requires a.Value? && b.Value? && a.addr.Some? && b.addr.Some?
    ensures var t := Guard(env, c, a, b, s).0;
            Guard(env, c, a, b, t) == (t, true)
  {
    var av := Visit(a.addr.value, a.typ);
    var bv := Visit(b.addr.value, b.typ);
    var t := Guard(env, c, a, b, s).0;
    assert t.aVisited[av := bv] == t.aVisited;
    assert t.bVisited[bv := av] == t.bVisited;
  }

  /** With "." as the separator, a named (non-index) segment appended to a
      non-empty path adds exactly the segment's own crumbs: the label levels
      the store consults at the new path are those of the old path followed
      by those of the segment. */
  lemma RelabelCrumbs(c: Crumb, name: string)
    requires c.path != "" && name != "" && name[0] != '['
    ensures Split(Relabel(c, name).path, ".") == Split(c.path, ".") + Split(name, ".")
  {
    SplitAtSeparator(c.path, name, '.');
  }
}
